=== FILE: README.md ===
# GIS file store — a Dafny model

This project models the core of a Django application that stores GIS files
per project. It covers:

- **File versioning and admission.** How an upload to a project is classified
  as duplicate content, a new version of a name, or a brand-new name. Which
  `is_latest` flags flip, which row and activity entry are written, and which
  admission checks (per-file size cap, owner quota) run before any write.
  Hard deletion of a single file is covered too.
- **The upload form.** An existing project and a new project name are
  mutually exclusive. Only the owner's non-deleted projects are selectable.
  Saving always creates a version-1 latest row.
- **Projects.** Creation together with the post-save signal that makes the
  owner an admin member. Hard (cascading) and soft deletion. The zip download
  of the latest rows and how each archive entry is named.
- **Memberships.** Inviting a user (get-or-create, role viewer) and removing
  one (manage rights required, the owner protected).
- **The single-file project model of `gis_database/models.py`.** Its upload
  path, the three validation limits in their order, what `save` does before
  validating, and the row-then-blob order of `delete`.
- **The support desk.** New tickets, replies attributed by the requester's
  role, the status moves to ONGOING and CLOSED, and the requester's listing.
- **The landing page contact form.** Strip every field, then require three.

The database is an immutable value (`GisModel.Db`): a map of projects, a
sequence of file-version rows, an append-only activity log and a sequence
of membership rows. Every view is a pure function from a database and a
request to `Ok(new database)` or `Err(reason)`. HTTP rendering and
redirects are collapsed into those error values.

The invariant the versioning path keeps is `GisModel.StoreInvariant`:

- at most one latest row per (project, name);
- every name with rows has a latest one;
- no two rows of a project share a content digest;
- versions of a name are exactly 1..n.

Three places in the code break parts of it, and each is stated as a lemma:

- `ProjectForm.save` and `upload_project` create a latest row without
  looking at existing rows.
- `delete_file` can remove the only latest row of a name.

`unset_latest` filters on the requester as owner as well as on project and
name. On the project's own rows this is the same as clearing the whole
logical file, because only the project owner writes rows through these
views; the lemma `FileViews.OwnerOwnsProjectRows` states this. The activity
labels are the ones the code writes: "added new file" for a new version of
an existing name and "create new file version" for a new name
(file_views.py lines 61 and 68).

The upload form's file field is Django's default `FileField`: it rejects a
missing file, a file without a name and a file of zero bytes, and the model
does the same before any other check.

## Model

| member | source | states |
|---|---|---|
| `FileViews.UnsetLatest` | gis_database/views/file_views.py:122-129 | Only the `is_latest` flag changes. A row loses it exactly when it is latest and matches (requester, project, name). Every other field and row is untouched. |
| `FileViews.UpdateFile` | gis_database/views/file_views.py:24-49 | A project not owned by the requester is not found. Success holds exactly when the project is the requester's, the request is a POST, the form is valid (so a named, non-empty file) and the quota predicate consents. A refused quota returns QuotaExceeded and no write. |
| `FileViews.DuplicateUploadAddsNothing` | gis_database/views/file_views.py:43-49 | Content already stored in the project under any name adds no row and no activity entry. The matching row becomes latest. The requester's other rows of that name lose latest. Rows of other names are untouched. |
| `FileViews.FreshUploadAppendsOneVersion` | gis_database/views/file_views.py:51-87 | New content appends exactly one latest row and one activity entry. The version is 1 for an unknown name (folder = stem with `_` for spaces, label "create new file version"). Otherwise it is one above every stored version, with the newest row's folder and label "added new file". Existing rows change only in their latest flag: the old rows become exactly `UnsetLatest` of themselves for (requester, project, name). |
| `FileViews.FreshUploadIsOnlyLatest` | gis_database/views/file_views.py:57-80 | After a non-duplicate upload the new row is the only latest row among the requester's rows of that name. |
| `FileViews.FolderFor` | gis_database/views/file_views.py:65-67 | The folder of a new name is the file name's stem with every space replaced by `_` and every other character kept. |
| `FileViews.CommitUpload` | gis_database/views/file_views.py:43-87 | The transaction after admission is a duplicate exactly when some row of the project has the digest; a duplicate adds no row and no activity, anything else adds one of each. Projects and memberships are untouched. The lemmas below give each branch in full. |
| `FileViews.UpdateFileKeepsInvariant` | gis_database/views/file_views.py:24-102 | From a database with unique latest rows, latest rows for every name, unique digests and gapless versions, every `update_file` outcome yields such a database again. |
| `FileViews.DuplicateKeepsInvariant` | gis_database/views/file_views.py:43-49 | The duplicate branch (unset then re-mark) keeps the store invariant. |
| `FileViews.FreshKeepsInvariant` | gis_database/views/file_views.py:52-87 | The new-version and new-name branches keep the store invariant. |
| `FileViews.UpdateFileKeepsWellFormed` | gis_database/views/file_views.py:24-102 | From a merely well-formed database every `update_file` outcome is well formed again, so it composes with `upload_project` and `delete_file`. |
| `FileViews.OwnerOwnsProjectRows` | gis_database/views/file_views.py:124-128 | In a well-formed store every row of a project is owned by the project's owner, so the owner filter of `unset_latest` selects the whole logical file. |
| `FileViews.UnsetClearsLogicalFile` | gis_database/views/file_views.py:122-129 | When the requester owns the project's rows, no row of the name stays latest after `unset_latest`. |
| `FileViews.NewestIsCount` | gis_database/views/file_views.py:52-59 | Under gapless versions the highest version of a name equals its number of rows, so max + 1 is also count + 1. |
| `FileViews.UploadProject` | gis_database/views/file_views.py:131-179 | Errors come in the order not-POST, invalid form, size above the cap, quota refused, and success holds exactly when none applies. On success exactly one row is appended: version 1, latest, owned by the requester, folder from the file name. With a chosen project the row goes there and projects, memberships and the project counter are unchanged. Otherwise it goes into a new project named after the stripped new name, owned by the requester, not deleted, with the owner's admin membership from the signal. The label is "uploaded new file". |
| `FileViews.UploadSizeCheckedBeforeQuota` | gis_database/views/file_views.py:139-147 | A file both too large and refused by the quota is reported as too large. |
| `FileViews.UploadProjectBreaksLatestUnique` | gis_database/views/file_views.py:152-167 | Uploading into an existing project whose name already has a latest row leaves two latest rows for that name. |
| `FileViews.DeleteFile` | gis_database/views/file_views.py:105-119 | Not found exactly when no row with that id lies in a project of the requester. A non-POST changes nothing. A POST removes exactly that row and appends a "deleted file" entry. The store stays well formed. |
| `FileViews.DeleteFileKeepsUniqueness` | gis_database/views/file_views.py:105-119 | Deleting a row keeps latest rows, digests and versions unique. |
| `FileViews.DeleteLatestLeavesNoLatest` | gis_database/views/file_views.py:110-116 | Deleting the latest row of a name that has other versions leaves that name with no latest row. |
| `ProjectForms.Validate` | gis_database/forms.py:8-39 | Valid exactly when the file is present, named and non-empty, the chosen project (if any) is selectable, the stripped new name has at most 255 characters and no null character, and not both choices are made. Each file error is reported exactly in its own case. |
| `ProjectForms.Clean` | gis_database/forms.py:30-39 | Rejects exactly the forms that select a project and name a new one. Any other form passes unchanged. |
| `ProjectForms.ValidFormResolvesOneWay` | gis_database/forms.py:30-48 | A valid form has one target: a chosen project is used as it is with an empty new name, otherwise a new project of the owner is created under the stripped name. |
| `ProjectForms.Selectable` | gis_database/forms.py:61-66 | The selectable projects are exactly the owner's non-deleted projects. |
| `ProjectForms.CreatedProjectSelectable` | gis_database/forms.py:47-48 | A project created for an owner joins that owner's selectable projects, and no other owner's selection changes. |
| `ProjectForms.ResolveProject` | gis_database/forms.py:43-48 | A selected project is used as it is, with nothing changed. Otherwise a fresh project is created under the new name, owned by the form owner and not deleted; the post-save signal adds the owner's admin membership and the project counter moves past the new key. Files and activity are untouched. |
| `ProjectForms.Save` | gis_database/forms.py:41-59 | Always appends one row with the next file key: version 1, latest, owned by the form owner. With a chosen project the row goes there and projects, memberships and the project counter are unchanged. Otherwise the row goes into a new project named after the cleaned new name, not deleted, with the owner's admin membership from the signal. No activity is logged. |
| `ProjectForms.SaveBreaksLatestUnique` | gis_database/forms.py:50-58 | Saving into a project whose name already has a latest row leaves two latest rows. |
| `ProjectForms.SaveBreaksHashUnique` | gis_database/forms.py:50-58 | Saving content already stored in the project leaves two rows with one digest. |
| `Signals.CreateProjectRecord` | gis_database/forms.py:48 | `Project.objects.create` gives the project a fresh key, moves the counter past it, starts it not deleted, runs the signal and keeps the store well formed; files and activity are untouched. |
| `Signals.AddOwnerAsAdmin` | gis_database/signals.py:6-16 | On creation with an owner, exactly one row is appended: the owner as admin, invited by the owner. Otherwise nothing is added. |
| `Signals.CreatedProjectHasOneAdmin` | gis_database/signals.py:7-16 | A project created with an owner has exactly one membership, and it is the owner's admin row. |
| `Signals.AddOwnerAsAdminKeepsUnique` | gis_database/signals.py:11-16 | The signal keeps (project, user) memberships unique. |
| `Signals.CreateProjectKeepsStoreInvariant` | gis_database/signals.py:6-16 | Creating a project keeps the file store invariant. |
| `ProjectViews.CreateProject` | gis_database/views/project_views.py:14-32 | An invalid form changes nothing. A valid one creates the requester's project under a fresh key, keeps the earlier memberships in place and leaves a well-formed store. |
| `ProjectViews.GetOrCreate` | gis_database/views/project_views.py:23-28 | Two or more equal rows fail the lookup. Otherwise exactly one row equals the looked-up one afterwards, earlier rows stay in place, and a row is added only when none was equal. |
| `ProjectViews.GetOrCreateIdempotent` | gis_database/views/project_views.py:23-28 | Repeating a successful lookup finds the row and changes nothing. |
| `ProjectViews.CreateProjectOneAdmin` | gis_database/views/project_views.py:14-32 | After `create_project` the owner holds exactly one admin membership: `get_or_create` finds the signal's row. |
| `ProjectViews.DropVersionTag` | gis_database/views/project_views.py:52-53 | The result is a prefix of the stem. It is the whole stem when there is no "_v"; otherwise it ends where the last "_v" starts. |
| `ProjectViews.EntryName` | gis_database/views/project_views.py:49-55 | The entry name is the stored basename's stem cut where its last "_v" starts (whole when there is none), followed by the original extension. It never contains a directory separator. |
| `ProjectViews.EntryNameWithoutTag` | gis_database/views/project_views.py:52-55 | A stem without "_v" gives the stored basename unchanged. |
| `ProjectViews.EntryNameDropsVersionTag` | gis_database/views/project_views.py:49-55 | `dir/stem_v<n>.ext` is archived as `stem.ext`. |
| `ProjectViews.EntryNameCutsAtLastTag` | gis_database/views/project_views.py:49-55 | `dir/head_v<tail>.ext` is archived as `head.ext` whenever the tail holds no further "_v", digits or not. |
| `ProjectViews.EntryNameCutsInsideWord` | gis_database/views/project_views.py:52-53 | `uploads/my_video.shp` is archived as `my.shp`: the "_v" inside a word is taken for a version tag. |
| `ProjectViews.EntriesOfSound` | gis_database/views/project_views.py:47-58 | Every archive entry comes from a given row with a stored file. |
| `ProjectViews.DownloadProject` | gis_database/views/project_views.py:35-63 | Only these two errors occur. Not found exactly when the project is not the requester's. No-files exactly when it is soft-deleted or has no latest rows. Otherwise the entries are exactly those of its latest rows with a stored file, and the archive is named after the project. |
| `ProjectViews.DeleteProject` | gis_database/views/project_views.py:66-77 | Not found is the only error, exactly when not owned. A non-POST changes nothing. A POST removes the project, its rows and its memberships. Every other file row and membership row stays exactly as many times as before, duplicates included; projects, activity and both key counters are otherwise unchanged. |
| `ProjectViews.DeleteProjectKeepsWellFormed` | gis_database/views/project_views.py:66-77 | The cascade leaves a well-formed store. |
| `ProjectViews.FilesOutsideCount` | gis_database/views/project_views.py:73 | The cascade keeps every file row outside the project exactly as often as it occurred, and drops every row of the project. |
| `ProjectViews.MembersOutsideCount` | gis_database/views/project_views.py:73 | The same for membership rows. |
| `ProjectViews.FilesOutsideKeepsOrder` | gis_database/views/project_views.py:73 | Removing a project's rows keeps row ids increasing. |
| `ProjectViews.DeleteProjectSoft` | gis_database/views/project_views.py:80-85 | Not found is the only error, exactly when not owned. A non-POST changes nothing. A POST only marks the project deleted. |
| `ProjectViews.SoftDeletedNotSelectable` | gis_database/views/project_views.py:80-85 | After a soft delete the upload form no longer offers the project; every other project is offered as before. |
| `ProjectViews.SoftDeletedNotDownloadable` | gis_database/views/project_views.py:39-43 | A soft-deleted project downloads as no-files. |
| `MembershipViews.AddMember` | gis_database/views/membership_views.py:10-33 | Not-POST, then a project not owned by the requester, then an unknown username are the errors. Two rows for the pair is the get-or-create failure. Success holds exactly when none of these applies. Otherwise a row is created (viewer, invited by the requester) exactly when the pair had none, and the pair ends with exactly one row. |
| `MembershipViews.AddMemberIdempotent` | gis_database/views/membership_views.py:22-29 | Adding the same user a second time changes nothing. |
| `MembershipViews.AddExistingMemberKeepsRole` | gis_database/views/membership_views.py:22-29 | An existing membership, role included, is left as it is. |
| `MembershipViews.AddMemberKeepsUnique` | gis_database/views/membership_views.py:22-26 | With unique memberships the get-or-create never fails and uniqueness is kept. |
| `MembershipViews.RemoveMember` | gis_database/views/membership_views.py:36-61 | The errors are: not POST, unknown project, no manage right, no owner, removing the owner, no such member. No-owner occurs exactly when the project is managed and has no owner, and success holds exactly when none of the errors applies. On success exactly the first row of the pair is removed: no earlier row belongs to the pair, and nothing else changes. |
| `MembershipViews.RemoveMemberFrame` | gis_database/views/membership_views.py:51-59 | Removal lowers the pair's count by one and leaves every other pair's count, the owner's included, unchanged. |
| `MembershipViews.RemoveMemberRemovesPair` | gis_database/views/membership_views.py:51-58 | Under unique memberships the removed user has no membership in the project afterwards. |
| `LegacyProjects.UserUploadPath` | gis_database/models.py:6-8 | The storage name is `uploads/user_<id>/<filename>`: it starts with the fixed prefix, and `UploadPathRoundTrip` reads it back. |
| `LegacyProjects.UploadPathRoundTrip` | gis_database/models.py:6-8 | The storage path `uploads/user_<id>/<filename>` can be read back into the user id and the file name. |
| `LegacyProjects.Clean` | gis_database/models.py:42-69 | Too many projects exactly when at least three other active projects exist. Storage exceeded exactly when fewer exist but their bytes plus this file pass 10 MiB. The single-file error is never the one raised. |
| `LegacyProjects.Others` | gis_database/models.py:46-48 | The rows measured are the user's non-archived projects, minus the project itself once it has a primary key. |
| `LegacyProjects.CleanExcludesSelf` | gis_database/models.py:47-48 | Re-validating a saved project gives the same result as validating without its stored row. |
| `LegacyProjects.Save` | gis_database/models.py:71-82 | No user is an error. An empty owner becomes the username before validation. Save succeeds exactly when `clean` does, and then stores the instance under its key or a fresh one. The table then holds the saved row and the old rows with other keys, and nothing else. |
| `LegacyProjects.SaveFillsOwner` | gis_database/models.py:78-79 | A saved project always has a non-empty owner when usernames are non-empty. |
| `LegacyProjects.Delete` | gis_database/models.py:84-89 | Removes the row, then the blob under the file's name when there is a file. |
| `LegacyProjects.DeleteOrder` | gis_database/models.py:84-89 | The row deletion comes first. A blob deletion happens only after it and only with a file. No other blob is touched. |
| `CustomerService.CustomerChat` | customer_service/views.py:14-60 | A reply to an unknown message fails before the form is checked. A reply succeeds exactly when its parent exists and the reply form is valid; a new ticket succeeds exactly when the ticket form is valid. Both forms refuse a null character in a stripped field. A success appends one message with a fresh id and the stripped body. A new ticket keeps every earlier message unchanged and has sender USER, the requester as user and the chosen category. |
| `CustomerService.ReplyAttribution` | customer_service/views.py:28-38 | A staff reply has sender STAFF, the staff member and the ticket's customer as user. Other replies have sender USER and the requester as user. The target becomes ONGOING and no other message changes. |
| `CustomerService.MissingParentBeforeForm` | customer_service/views.py:21-25 | A missing reply target is reported even when the form is invalid. |
| `CustomerService.CloseTicket` | customer_service/views.py:63-68 | Fails exactly when the message is not the requester's. Otherwise only its status changes, to CLOSED. |
| `CustomerService.ReplyReopensClosedTicket` | customer_service/views.py:36-38 | Close followed by a reply leaves the ticket ONGOING. |
| `CustomerService.Listing` | customer_service/views.py:16-18 | The listing is sorted by creation time and is a permutation of the requester's top-level messages. |
| `CustomerService.SortByTime` | customer_service/views.py:18 | Sorting by creation time returns a sorted permutation of its input. |
| `Landing.Contact` | landingpage/views.py:9-29 | A non-POST changes nothing. A POST stores the four stripped fields exactly when full name, e-mail and message are non-empty, with a thanks message. Otherwise it only queues the error message. |
| `Landing.ContactStoresIff` | landingpage/views.py:16-26 | A POST stores one record exactly when full name, e-mail and message each hold a non-whitespace character, the topic playing no part. Otherwise the records stay as they were. |
| `Landing.ContactStoresStripped` | landingpage/views.py:11-22 | Every stored field is already stripped. |
| `Landing.Field` | landingpage/views.py:11-14 | A field is empty exactly when it is missing or all whitespace. |
| `Text.ParseNatToString` | gis_database/models.py:8 | Decimal rendering of a user id reads back to the same id. |
| `Text.Strip` | landingpage/views.py:11-14 | The result is a slice of the input with only whitespace cut from either end, and it neither starts nor ends with whitespace. It is empty exactly when the input is all whitespace. |
| `Text.StripIdempotent` | landingpage/views.py:11-14 | Stripping twice is stripping once. |
| `Text.SplitExt` | gis_database/views/project_views.py:50 | Stem and extension concatenate to the name. The extension is empty, or a dot followed by no further dot or slash. |
| `Text.SplitExtOfJoin` | gis_database/views/project_views.py:50 | A plain stem with an extension appended splits back into exactly that stem and extension. |
| `Text.RSplitHead` | gis_database/views/project_views.py:53 | The head is a prefix that ends at the last occurrence of the separator, or the whole string when there is none. |

## Left out

- `compute_hash` (gis_database/utils.py) is SHA-256 over the uploaded chunks. It is not modelled. The digest is an input field of an upload, treated as a plain string.
- `Profile.can_store`, `Project.can_manage`, `Project.soft_delete` and `File.MAX_FILE_SIZE` are not defined in the files modelled. The quota and manage rights are function parameters. The size cap is a number parameter. Soft deletion sets the project's deleted flag.
- The File, FileActivity and ProjectMembership models and the gis Project model they refer to are not part of this model. Their fields are taken from how the views use them. A (project, user) uniqueness constraint on memberships is not assumed; it is proved to be kept instead.
- `upload_project` calls `form.save(commit=False)`, which in the form creates a File and returns it (gis_database/views/file_views.py:152). The view then passes that File as the `project` of `File.objects.create` (gis_database/views/file_views.py:158-159). Django refuses a File where a Project foreign key is expected, so as written the success path raises inside `transaction.atomic` and nothing is committed. The model follows the evident intent instead: the form's project resolution followed by the view's own row creation, with `ProjectForm.save` modelled separately. `FileViews.UploadProject` and `FileViews.UploadProjectBreaksLatestUnique` describe that intent, not a state the code as written reaches.
- Storage I/O, the zip bytes, file contents, transactions, rendering, redirects, flash-message text of the membership views, and pagination are not modelled. A stored file is its key, and the legacy blob store is a set of names.
- The dashboard, spatial-file processing, the API, admin, settings, URL configuration and front-end code are not part of this model.
- Concurrency is not modelled. All views are sequential transitions.
- `FileViews.UpdateFile`: the file's storage key is given with the upload, because the File model's `upload_to` is not part of this model.
- `CustomerService.CustomerChat`: a `parent_id` that is not a number raises in the ORM. That crash is not modelled; the parent id is a natural number or absent. The field rules of the two message forms are reduced to required fields, the subject length and the null-character ban.
- `LegacyProjects.Save`: field-level validation of `full_clean` beyond `clean`, and `created_at` ordering, are not modelled.
- Ties in `order_by("-version").first()` and in `order_by("created_at")` are resolved by row order. The database leaves that order unspecified.
- The legacy `clean` compares a floating-point megabyte value with 10. Dividing by 2^20 is exact in floating point for the sizes concerned, so the model compares bytes with 10 * 2^20 instead.
- `delete_file` writes the "deleted file" activity entry before deleting the row. What the activity row's foreign key does on deletion is not shown, so the model keeps the entry. `delete_project` writes no activity.

=== FILE: customer_service.dfy ===
/** The support desk: customers open tickets (top-level messages), users
    and staff reply to them, customers close them, and each customer sees
    their own tickets oldest first. */
module CustomerService {
  import opened Results
  import opened Text
  import GisModel

  /** The account id, shared with the GIS store. */
  type UserId = GisModel.UserId

  datatype Sender = User | Staff

  datatype Status = New | Replied | Ongoing | Closed

  datatype Category = Feedback | Testimonial | Bug | Feature | Support

  /** A stored message. `parent` is `None` for a ticket and the ticket's id
      for a reply; `createdAt` is the creation time stamp. */
  datatype Message = Message(
    id: nat,
    user: UserId,
    staff: Option<UserId>,
    sender: Sender,
    parent: Option<nat>,
    status: Status,
    createdAt: int,
    category: Category,
    subject: string,
    body: string)

  /** All messages in insertion order, and the next primary key. */
  datatype Desk = Desk(messages: seq<Message>, nextId: nat)

  datatype Requester = Requester(id: UserId, isStaff: bool)

  /** What a POST carries: the reply target (absent or empty when opening
      a ticket) and the raw form fields. */
  datatype ChatPost = ChatPost(parentId: Option<nat>, subject: string, category: Option<Category>, body: string)

  datatype ChatError =
    | NotSubmitted     // not a POST: the page is rendered, nothing changes
    | ParentNotFound   // the reply target does not exist
    | InvalidForm      // the form did not validate: rendered again
    | NotFound         // no such message of the requester (404)

  const MaxSubjectLength := 255

  // ---------------------------------------------------------------------
  // Forms

  /** `CustomerMessageForm`: subject and message are required (after the
      form's whitespace stripping), the subject is at most 255 characters,
      neither holds a null character (as every text field of a form
      demands), and the category is one of the choices. */
  predicate TicketFormValid(post: ChatPost)
  {
    && Strip(post.subject) != "" && |Strip(post.subject)| <= MaxSubjectLength && NullChar !in Strip(post.subject)
    && post.category.Some?
    && Strip(post.body) != "" && NullChar !in Strip(post.body)
  }

  /** `CustomerMessageReplyForm`: only the message, required and free of
      null characters. */
  predicate ReplyFormValid(post: ChatPost)
  {
    Strip(post.body) != "" && NullChar !in Strip(post.body)
  }

  /** Index of the message with primary key `id`, if any. */
  function MessageIndex(ms: seq<Message>, id: nat): (r: Option<nat>)
    ensures r.Some? ==> r.value < |ms| && ms[r.value].id == id
    ensures r.None? <==> forall j :: 0 <= j < |ms| ==> ms[j].id != id
  {
    if |ms| == 0 then None
    else if ms[|ms| - 1].id == id then Some(|ms| - 1)
    else MessageIndex(ms[..|ms| - 1], id)
  }

  // ---------------------------------------------------------------------
  // customer_chat

  /** `customer_chat` on a POST at time `now`. A reply first looks up its
      target (anyone's message), then validates; it is stored with the
      requester as staff author and the target's customer as user when the
      requester is staff, or with the requester as user otherwise, and the
      target's status becomes ONGOING whatever it was. A new ticket is
      stored with the requester as user and sender USER. Any other method
      changes nothing. */
  function CustomerChat(desk: Desk, who: Requester, isPost: bool, post: ChatPost, now: int): (r: Result<Desk, ChatError>)
    ensures !isPost ==> r == Err(NotSubmitted)
    ensures isPost && post.parentId.Some? ==>
      (r == Err(ParentNotFound) <==> forall j :: 0 <= j < |desk.messages| ==> desk.messages[j].id != post.parentId.value)
    ensures isPost && post.parentId.Some? && r.Ok? ==> ReplyFormValid(post)
    ensures isPost && post.parentId.Some? ==>
      (r.Ok? <==> (exists j :: 0 <= j < |desk.messages| && desk.messages[j].id == post.parentId.value) && ReplyFormValid(post))
    ensures isPost && post.parentId.None? ==> (r.Ok? <==> TicketFormValid(post))
    ensures r.Ok? ==>
      && |r.value.messages| == |desk.messages| + 1
      && r.value.nextId == desk.nextId + 1
      && var m := r.value.messages[|desk.messages|];
      && m.id == desk.nextId && m.parent == post.parentId && m.status == New && m.createdAt == now
      && m.body == Strip(post.body)
      && (post.parentId.None? ==> m.sender == User && m.user == who.id && m.staff.None? && m.subject == Strip(post.subject))
    ensures r.Ok? && post.parentId.None? ==>
      && r.value.messages[..|desk.messages|] == desk.messages
      && r.value.messages[|desk.messages|].category == post.category.value
  {
    if !isPost then Err(NotSubmitted)
    else match post.parentId
      case Some(pid) =>
        (match MessageIndex(desk.messages, pid)
        case None => Err(ParentNotFound)
        case Some(k) =>
          if !ReplyFormValid(post) then Err(InvalidForm)
          else
            var parent := desk.messages[k];
            var msg :=
              if who.isStaff then Message(desk.nextId, parent.user, Some(who.id), Staff, Some(pid), New, now, Feedback, "", Strip(post.body))
              else Message(desk.nextId, who.id, None, User, Some(pid), New, now, Feedback, "", Strip(post.body));
            var ms := desk.messages[k := parent.(status := Ongoing)];
            Ok(Desk(ms + [msg], desk.nextId + 1)))
      case None =>
        if !TicketFormValid(post) then Err(InvalidForm)
        else
          var msg := Message(desk.nextId, who.id, None, User, None, New, now, post.category.value, Strip(post.subject), Strip(post.body));
          Ok(Desk(desk.messages + [msg], desk.nextId + 1))
  }

  /** A reply is attributed by the requester's role: staff replies carry
      sender STAFF, the staff member, and the ticket's customer as user;
      other replies carry sender USER and the requester as user. The target
      becomes ONGOING, even when it was CLOSED, and no other stored message
      changes. */
  lemma ReplyAttribution(desk: Desk, who: Requester, post: ChatPost, now: int, k: nat)
    requires post.parentId.Some? && ReplyFormValid(post)
    requires k < |desk.messages| && desk.messages[k].id == post.parentId.value
    requires forall j :: 0 <= j < |desk.messages| && j != k ==> desk.messages[j].id != post.parentId.value
    ensures CustomerChat(desk, who, true, post, now).Ok?
    ensures var ms := CustomerChat(desk, who, true, post, now).value.messages;
      var m := ms[|desk.messages|];
      && (who.isStaff ==> m.sender == Staff && m.staff == Some(who.id) && m.user == desk.messages[k].user)
      && (!who.isStaff ==> m.sender == User && m.staff.None? && m.user == who.id)
      && ms[k] == desk.messages[k].(status := Ongoing)
      && forall j :: 0 <= j < |desk.messages| && j != k ==> ms[j] == desk.messages[j]
  {
    assert MessageIndex(desk.messages, post.parentId.value) == Some(k);
  }

  /** A missing reply target is reported before the form is looked at. */
  lemma MissingParentBeforeForm(desk: Desk, who: Requester, post: ChatPost, now: int)
    requires post.parentId.Some? && !ReplyFormValid(post)
    requires forall j :: 0 <= j < |desk.messages| ==> desk.messages[j].id != post.parentId.value
    ensures CustomerChat(desk, who, true, post, now) == Err(ParentNotFound)
  {
  }

  // ---------------------------------------------------------------------
  // close_ticket

  /** Index of the message `id` if it belongs to `user`. */
  function OwnedMessage(ms: seq<Message>, user: UserId, id: nat): (r: Option<nat>)
    ensures r.Some? ==> r.value < |ms| && ms[r.value].id == id && ms[r.value].user == user
    ensures r.None? <==> forall j :: 0 <= j < |ms| ==> !(ms[j].id == id && ms[j].user == user)
  {
    if |ms| == 0 then None
    else if ms[|ms| - 1].id == id && ms[|ms| - 1].user == user then Some(|ms| - 1)
    else OwnedMessage(ms[..|ms| - 1], user, id)
  }

  /** `close_ticket`: the message must belong to the requester; it becomes
      CLOSED and nothing else changes. */
  function CloseTicket(desk: Desk, who: Requester, id: nat): (r: Result<Desk, ChatError>)
    ensures r.Err? <==> forall j :: 0 <= j < |desk.messages| ==> !(desk.messages[j].id == id && desk.messages[j].user == who.id)
    ensures r.Err? ==> r.error == NotFound
    ensures r.Ok? ==>
      && r.value.nextId == desk.nextId
      && |r.value.messages| == |desk.messages|
      && exists k :: 0 <= k < |desk.messages| && desk.messages[k].id == id && desk.messages[k].user == who.id
           && r.value.messages == desk.messages[k := desk.messages[k].(status := Closed)]
  {
    match OwnedMessage(desk.messages, who.id, id)
    case None => Err(NotFound)
    case Some(k) => Ok(desk.(messages := desk.messages[k := desk.messages[k].(status := Closed)]))
  }

  /** A reply reopens a closed ticket: after close then reply the ticket is
      ONGOING again. */
  lemma ReplyReopensClosedTicket(desk: Desk, who: Requester, post: ChatPost, now: int, k: nat)
    requires k < |desk.messages| && desk.messages[k].user == who.id
    requires forall j :: 0 <= j < |desk.messages| && j != k ==> desk.messages[j].id != desk.messages[k].id
    requires post.parentId == Some(desk.messages[k].id) && ReplyFormValid(post)
    ensures var d1 := CloseTicket(desk, who, desk.messages[k].id);
      && d1.Ok? && d1.value.messages[k].status == Closed
      && var d2 := CustomerChat(d1.value, who, true, post, now);
      && d2.Ok? && d2.value.messages[k].status == Ongoing
  {
    var id := desk.messages[k].id;
    var d1 := CloseTicket(desk, who, id).value;
    assert OwnedMessage(desk.messages, who.id, id) == Some(k) by {
      var o := OwnedMessage(desk.messages, who.id, id);
    }
    ReplyAttribution(d1, who, post, now, k);
  }

  // ---------------------------------------------------------------------
  // The listing

  /** The requester's tickets, in row order. */
  function OwnTickets(ms: seq<Message>, user: UserId): (r: seq<Message>)
    ensures forall m :: m in r <==> m in ms && m.parent.None? && m.user == user
    ensures |r| <= |ms|
  {
    if |ms| == 0 then []
    else OwnTickets(ms[..|ms| - 1], user) + (if ms[|ms| - 1].parent.None? && ms[|ms| - 1].user == user then [ms[|ms| - 1]] else [])
  }

  predicate SortedByTime(ms: seq<Message>)
  {
    forall i, j :: 0 <= i < j < |ms| ==> ms[i].createdAt <= ms[j].createdAt
  }

  /** Insert `m` before the first message created strictly later. */
  function InsertByTime(ms: seq<Message>, m: Message): (r: seq<Message>)
    requires SortedByTime(ms)
    ensures SortedByTime(r)
    ensures multiset(r) == multiset(ms) + multiset{m}
  {
    if |ms| == 0 then [m]
    else if m.createdAt < ms[0].createdAt then [m] + ms
    else
      var rest := InsertByTime(ms[1..], m);
      assert ms == [ms[0]] + ms[1..];
      HeadBeforeInserted(ms, m, rest);
      [ms[0]] + rest
  }

  /** The head of a sorted sequence precedes everything in the rest with
      a later-or-equal element inserted. */
  lemma HeadBeforeInserted(ms: seq<Message>, m: Message, rest: seq<Message>)
    requires |ms| > 0 && SortedByTime(ms) && SortedByTime(rest)
    requires ms[0].createdAt <= m.createdAt
    requires multiset(rest) == multiset(ms[1..]) + multiset{m}
    ensures SortedByTime([ms[0]] + rest)
  {
    forall i | 0 <= i < |rest| ensures ms[0].createdAt <= rest[i].createdAt {
      assert rest[i] in multiset(rest);
      if rest[i] != m {
        assert rest[i] in multiset(ms[1..]);
        var j :| 0 <= j < |ms[1..]| && ms[1..][j] == rest[i];
        assert ms[j + 1] == rest[i];
      }
    }
    var s := [ms[0]] + rest;
    forall i, j | 0 <= i < j < |s| ensures s[i].createdAt <= s[j].createdAt {
      if i > 0 { assert s[i] == rest[i - 1] && s[j] == rest[j - 1]; }
      else { assert s[j] == rest[j - 1]; }
    }
  }

  /** Stable insertion sort by creation time. */
  function SortByTime(ms: seq<Message>): (r: seq<Message>)
    ensures SortedByTime(r)
    ensures multiset(r) == multiset(ms)
  {
    if |ms| == 0 then []
    else
      assert ms == ms[..|ms| - 1] + [ms[|ms| - 1]];
      InsertByTime(SortByTime(ms[..|ms| - 1]), ms[|ms| - 1])
  }

  /** The messages `customer_chat` lists: the requester's tickets, oldest
      first. */
  function Listing(desk: Desk, user: UserId): (r: seq<Message>)
    ensures SortedByTime(r)
    ensures multiset(r) == multiset(OwnTickets(desk.messages, user))
    ensures forall m :: m in r <==> m in desk.messages && m.parent.None? && m.user == user
  {
    var r := SortByTime(OwnTickets(desk.messages, user));
    assert forall m :: m in r <==> m in multiset(r);
    r
  }
}

=== FILE: file_views.dfy ===
/** The upload and delete views of the file store: how an upload is
    classified (duplicate content, new version of a name, brand-new name),
    which latest flags flip, what row and activity entry are written, and
    which admission checks come first. */
module FileViews {
  import opened Results
  import opened Text
  import opened GisModel
  import ProjectForms

  /** Activity labels, as the views write them. */
  const AddedNewFile := "added new file"
  const CreateNewFileVersion := "create new file version"
  const UploadedNewFile := "uploaded new file"
  const DeletedFile := "deleted file"

  datatype UploadError =
    | ProjectNotFound   // no such project owned by the requester (404)
    | NotSubmitted      // not a POST: the form is rendered, nothing changes
    | InvalidForm       // `ProjectForm.is_valid()` failed
    | FileTooLarge      // size above the per-file cap
    | QuotaExceeded     // the owner's quota predicate refused the size

  /** How `update_file` classified an upload. */
  datatype UploadOutcome =
    | Duplicate(row: nat)       // index of the row whose digest matched
    | NewVersion(version: nat)  // a further version of an existing name
    | NewFile                   // version 1 of a name the project lacks

  datatype Committed = Committed(db: Db, outcome: UploadOutcome)

  // ---------------------------------------------------------------------
  // unset_latest

  /** The rows `unset_latest(user, project, name)` selects. */
  predicate UnsetSelects(f: FileVersion, user: UserId, p: ProjectId, name: string)
  {
    f.owner == Some(user) && InGroup(f, p, name) && f.isLatest
  }

  /** `unset_latest`: clear `is_latest` on the latest rows of `user` for the
      logical file `(p, name)`; every other field of every row is kept. */
  function UnsetLatest(fs: seq<FileVersion>, user: UserId, p: ProjectId, name: string): (r: seq<FileVersion>)
    ensures |r| == |fs|
    ensures forall i :: 0 <= i < |fs| ==> r[i] == fs[i].(isLatest := r[i].isLatest)
    ensures forall i :: 0 <= i < |fs| ==> (r[i].isLatest <==> fs[i].isLatest && !UnsetSelects(fs[i], user, p, name))
  {
    if |fs| == 0 then []
    else
      [if UnsetSelects(fs[0], user, p, name) then fs[0].(isLatest := false) else fs[0]]
      + UnsetLatest(fs[1..], user, p, name)
  }

  // ---------------------------------------------------------------------
  // Lookups done inside the transaction

  predicate HashIn(f: FileVersion, p: ProjectId, h: string)
  {
    f.project == p && f.hash == h
  }

  /** `project.files.filter(hash=h).first()`, scanning rows from index `k`
      in primary-key order. */
  function FirstWithHashFrom(fs: seq<FileVersion>, p: ProjectId, h: string, k: nat): (r: Option<nat>)
    requires k <= |fs|
    decreases |fs| - k
    ensures r.Some? ==> k <= r.value < |fs| && HashIn(fs[r.value], p, h)
    ensures r.Some? ==> forall j :: k <= j < r.value ==> !HashIn(fs[j], p, h)
    ensures r.None? ==> forall j :: k <= j < |fs| ==> !HashIn(fs[j], p, h)
  {
    if k == |fs| then None
    else if HashIn(fs[k], p, h) then Some(k)
    else FirstWithHashFrom(fs, p, h, k + 1)
  }

  function FirstWithHash(fs: seq<FileVersion>, p: ProjectId, h: string): (r: Option<nat>)
    ensures r.Some? ==> r.value < |fs| && HashIn(fs[r.value], p, h)
    ensures r.None? <==> forall j :: 0 <= j < |fs| ==> !HashIn(fs[j], p, h)
  {
    FirstWithHashFrom(fs, p, h, 0)
  }

  /** `project.files.filter(name=name).order_by("-version").first()` over
      rows from index `k`: a row of the logical file with the highest version
      (the earliest such row when versions tie). */
  function NewestFrom(fs: seq<FileVersion>, p: ProjectId, name: string, k: nat): (r: Option<nat>)
    requires k <= |fs|
    decreases |fs| - k
    ensures r.Some? ==> k <= r.value < |fs| && InGroup(fs[r.value], p, name)
    ensures r.Some? ==> forall j :: k <= j < |fs| && InGroup(fs[j], p, name) ==> fs[j].version <= fs[r.value].version
    ensures r.None? ==> forall j :: k <= j < |fs| ==> !InGroup(fs[j], p, name)
  {
    if k == |fs| then None
    else
      var rest := NewestFrom(fs, p, name, k + 1);
      if !InGroup(fs[k], p, name) then rest
      else if rest.Some? && fs[rest.value].version > fs[k].version then rest
      else Some(k)
  }

  function Newest(fs: seq<FileVersion>, p: ProjectId, name: string): (r: Option<nat>)
    ensures r.Some? ==> r.value < |fs| && InGroup(fs[r.value], p, name)
    ensures r.Some? ==> forall j :: 0 <= j < |fs| && InGroup(fs[j], p, name) ==> fs[j].version <= fs[r.value].version
    ensures r.None? <==> forall j :: 0 <= j < |fs| ==> !InGroup(fs[j], p, name)
  {
    NewestFrom(fs, p, name, 0)
  }

  // ---------------------------------------------------------------------
  // Writing a new row

  /** The folder of a brand-new name: the file name without its extension,
      spaces turned into underscores. */
  function FolderFor(name: string): (r: string)
    ensures ' ' !in r
    ensures |r| == |SplitExt(name).0|
    ensures forall i :: 0 <= i < |r| ==> r[i] == (if SplitExt(name).0[i] == ' ' then '_' else SplitExt(name).0[i])
  {
    ReplaceChar(SplitExt(name).0, ' ', '_')
  }

  /** The row `File.objects.create(...)` writes for an upload, and its
      activity entry, under the next primary key. */
  function AppendVersion(db: Db, user: UserId, p: ProjectId, up: Upload, version: nat, folder: string, action: string): (r: Db)
    ensures r.files == db.files + [FileVersion(db.nextFile, p, Some(user), up.name, folder, up.hash, version, true, up.key)]
    ensures r.activity == db.activity + [Activity(db.nextFile, user, action)]
    ensures r.projects == db.projects && r.members == db.members && r.nextProject == db.nextProject
    ensures r.nextFile == db.nextFile + 1
  {
    db.(files := db.files + [FileVersion(db.nextFile, p, Some(user), up.name, folder, up.hash, version, true, up.key)],
        activity := db.activity + [Activity(db.nextFile, user, action)],
        nextFile := db.nextFile + 1)
  }

  // ---------------------------------------------------------------------
  // update_file

  /** The transaction of `update_file` once admission has passed. */
  function CommitUpload(db: Db, user: UserId, p: ProjectId, up: Upload): (r: Committed)
    ensures r.outcome.Duplicate? <==> exists k :: 0 <= k < |db.files| && HashIn(db.files[k], p, up.hash)
    ensures r.outcome.Duplicate? ==> |r.db.files| == |db.files| && r.db.activity == db.activity
    ensures !r.outcome.Duplicate? ==> |r.db.files| == |db.files| + 1 && |r.db.activity| == |db.activity| + 1
    ensures r.db.projects == db.projects && r.db.members == db.members
  {
    match FirstWithHash(db.files, p, up.hash)
    case Some(i) =>
      // same content already stored: it becomes the latest of its own name
      var fs := UnsetLatest(db.files, user, p, db.files[i].name);
      Committed(db.(files := fs[i := fs[i].(isLatest := true)]), Duplicate(i))
    case None =>
      match Newest(db.files, p, up.name)
      case Some(j) =>
        var prior := db.files[j];
        var db1 := db.(files := UnsetLatest(db.files, user, p, up.name));
        Committed(AppendVersion(db1, user, p, up, prior.version + 1, prior.folder, AddedNewFile),
                  NewVersion(prior.version + 1))
      case None =>
        Committed(AppendVersion(db, user, p, up, 1, FolderFor(up.name), CreateNewFileVersion), NewFile)
  }

  /** `update_file` on project `p`: the project must be the requester's,
      the request a POST with a valid form, and the quota predicate must
      accept the size; only then is anything written. */
  function UpdateFile(db: Db, user: UserId, p: ProjectId, isPost: bool, form: ProjectForms.FormData, canStore: nat -> bool): (r: Result<Committed, UploadError>)
    ensures p !in db.projects || db.projects[p].owner != Some(user) ==> r == Err(ProjectNotFound)
    ensures r.Ok? ==> isPost && ProjectForms.Validate(db.projects, Some(user), form).Ok? && canStore(form.file.value.size)
    ensures r.Err? && r.error == QuotaExceeded ==> form.file.Some? && !canStore(form.file.value.size)
    ensures
      (p in db.projects && db.projects[p].owner == Some(user) && isPost
       && ProjectForms.Validate(db.projects, Some(user), form).Ok? && !canStore(form.file.value.size))
      ==> r == Err(QuotaExceeded)
    ensures r.Ok? ==> r.value == CommitUpload(db, user, p, form.file.value)
    ensures r.Ok? <==>
      && p in db.projects && db.projects[p].owner == Some(user) && isPost
      && ProjectForms.Validate(db.projects, Some(user), form).Ok? && canStore(form.file.value.size)
  {
    if p !in db.projects || db.projects[p].owner != Some(user) then Err(ProjectNotFound)
    else if !isPost then Err(NotSubmitted)
    else if ProjectForms.Validate(db.projects, Some(user), form).Err? then Err(InvalidForm)
    else
      var up := form.file.value;
      if !canStore(up.size) then Err(QuotaExceeded)
      else Ok(CommitUpload(db, user, p, up))
  }

  /** Content already stored anywhere in the project, under any name, adds
      no row and no activity entry: that row becomes latest, every other
      row of the requester with its name loses the flag, and nothing else
      changes. */
  lemma DuplicateUploadAddsNothing(db: Db, user: UserId, p: ProjectId, up: Upload, k: nat)
    requires k < |db.files| && HashIn(db.files[k], p, up.hash)
    ensures var c := CommitUpload(db, user, p, up);
      && c.outcome.Duplicate?
      && var i := c.outcome.row;
      && i < |db.files| && HashIn(db.files[i], p, up.hash)
      && |c.db.files| == |db.files|
      && c.db.activity == db.activity
      && c.db.projects == db.projects && c.db.members == db.members && c.db.nextFile == db.nextFile
      && c.db.files[i] == db.files[i].(isLatest := true)
      && (forall j :: 0 <= j < |db.files| ==> c.db.files[j] == db.files[j].(isLatest := c.db.files[j].isLatest))
      && (forall j :: (0 <= j < |db.files| && j != i && db.files[j].owner == Some(user)
            && InGroup(db.files[j], p, db.files[i].name)) ==> !c.db.files[j].isLatest)
      && (forall j :: 0 <= j < |db.files| && !InGroup(db.files[j], p, db.files[i].name) ==> c.db.files[j] == db.files[j])
  {
  }

  /** Content the project does not hold yet adds exactly one row, at the
      end, and one activity entry for it; the version is one past the
      highest version of the name, or 1 for a new name; the folder is
      inherited from that highest version or derived from the file name;
      the label says which case applied. */
  lemma FreshUploadAppendsOneVersion(db: Db, user: UserId, p: ProjectId, up: Upload)
    requires forall j :: 0 <= j < |db.files| ==> !HashIn(db.files[j], p, up.hash)
    ensures var c := CommitUpload(db, user, p, up);
      && !c.outcome.Duplicate?
      && |c.db.files| == |db.files| + 1
      && var row := c.db.files[|db.files|];
      && row.id == db.nextFile && row.project == p && row.owner == Some(user)
      && row.name == up.name && row.hash == up.hash && row.key == up.key && row.isLatest
      && c.db.activity == db.activity + [Activity(row.id, user, if c.outcome.NewFile? then CreateNewFileVersion else AddedNewFile)]
      && (c.outcome.NewFile? <==> forall j :: 0 <= j < |db.files| ==> !InGroup(db.files[j], p, up.name))
      && (c.outcome.NewFile? ==> row.version == 1 && row.folder == FolderFor(up.name))
      && (c.outcome.NewVersion? ==>
            row.version == c.outcome.version
            && exists j :: 0 <= j < |db.files| && InGroup(db.files[j], p, up.name)
                 && row.version == db.files[j].version + 1 && row.folder == db.files[j].folder
                 && forall m :: 0 <= m < |db.files| && InGroup(db.files[m], p, up.name) ==> db.files[m].version < row.version)
      && (forall j :: 0 <= j < |db.files| ==> c.db.files[j] == db.files[j].(isLatest := c.db.files[j].isLatest))
      && c.db.files[..|db.files|] == UnsetLatest(db.files, user, p, up.name)
  {
    var c := CommitUpload(db, user, p, up);
    match Newest(db.files, p, up.name)
    case Some(j) =>
      assert c.db.files[|db.files|].version == db.files[j].version + 1;
    case None =>
  }

  /** After a non-duplicate upload the new row is the only latest row among
      the requester's rows of that logical file. */
  lemma FreshUploadIsOnlyLatest(db: Db, user: UserId, p: ProjectId, up: Upload)
    requires forall j :: 0 <= j < |db.files| ==> !HashIn(db.files[j], p, up.hash)
    ensures var fs := CommitUpload(db, user, p, up).db.files;
      && |fs| == |db.files| + 1 && fs[|db.files|].isLatest
      && forall j :: 0 <= j < |db.files| && fs[j].owner == Some(user) && InGroup(fs[j], p, up.name) ==> !fs[j].isLatest
  {
  }

  // ---------------------------------------------------------------------
  // The invariants survive update_file

  /** Rows that differ at most in their latest flags. */
  predicate SameExceptLatest(a: seq<FileVersion>, b: seq<FileVersion>)
  {
    |a| == |b| && forall i :: 0 <= i < |a| ==> b[i] == a[i].(isLatest := b[i].isLatest)
  }

  /** Every row of project `p` belongs to `user`. */
  predicate ProjectRowsOwnedBy(fs: seq<FileVersion>, p: ProjectId, user: UserId)
  {
    forall j :: 0 <= j < |fs| && fs[j].project == p ==> fs[j].owner == Some(user)
  }

  lemma OwnerOwnsProjectRows(db: Db, p: ProjectId, user: UserId)
    requires WellFormed(db) && p in db.projects && db.projects[p].owner == Some(user)
    ensures ProjectRowsOwnedBy(db.files, p, user)
  {
  }

  /** In a project whose rows all belong to `user`, `unset_latest` clears
      the whole logical file and leaves the rest untouched. */
  lemma UnsetClearsLogicalFile(fs: seq<FileVersion>, user: UserId, p: ProjectId, name: string)
    requires ProjectRowsOwnedBy(fs, p, user)
    ensures var fs1 := UnsetLatest(fs, user, p, name);
      && SameExceptLatest(fs, fs1)
      && (forall j :: 0 <= j < |fs1| && InGroup(fs1[j], p, name) ==> !fs1[j].isLatest)
      && (forall j :: 0 <= j < |fs| && !InGroup(fs[j], p, name) ==> fs1[j] == fs[j])
  {
  }

  /** The latest flags after the duplicate branch: the matched row `i` is
      the one latest row of its logical file, and every other logical file
      keeps its latest row. */
  lemma DuplicateLatestFacts(fs: seq<FileVersion>, user: UserId, p: ProjectId, i: nat)
    requires ProjectRowsOwnedBy(fs, p, user)
    requires LatestUnique(fs) && GroupsHaveLatest(fs)
    requires i < |fs| && fs[i].project == p
    ensures var fs1 := UnsetLatest(fs, user, p, fs[i].name);
      var fs2 := fs1[i := fs1[i].(isLatest := true)];
      LatestUnique(fs2) && GroupsHaveLatest(fs2)
  {
    var name := fs[i].name;
    var fs1 := UnsetLatest(fs, user, p, name);
    UnsetClearsLogicalFile(fs, user, p, name);
    ClearingKeepsLatestFacts(fs, fs1, p, name);
    MarkLatestRestores(fs1, i, p, name);
  }

  /** Clearing and then setting latest flags changes nothing else. */
  lemma MarkAfterUnsetFlagsOnly(fs: seq<FileVersion>, user: UserId, p: ProjectId, name: string, i: nat)
    requires i < |fs|
    ensures var fs1 := UnsetLatest(fs, user, p, name);
      SameExceptLatest(fs, fs1[i := fs1[i].(isLatest := true)])
  {
  }

  /** Flipping latest flags keeps digests unique and versions gapless. */
  lemma FlagsOnlyKeepKeys(a: seq<FileVersion>, b: seq<FileVersion>)
    requires SameExceptLatest(a, b)
    requires HashUnique(a) && VersionsGapless(a)
    ensures HashUnique(b) && VersionsGapless(b)
  {
    forall i | 0 <= i < |b|
      ensures 1 <= b[i].version <= GroupCount(b, b[i].project, b[i].name)
      ensures HasVersion(b, b[i].project, b[i].name, GroupCount(b, b[i].project, b[i].name))
    {
      GroupCountSameKeys(a, b, b[i].project, b[i].name);
      var n := GroupCount(a, a[i].project, a[i].name);
      assert HasVersion(a, a[i].project, a[i].name, n);
      var w :| 0 <= w < |a| && InGroup(a[w], a[i].project, a[i].name) && a[w].version == n;
      assert InGroup(b[w], b[i].project, b[i].name) && b[w].version == n;
    }
  }

  /** Flipping latest flags keeps the rows well formed. */
  lemma FlagsOnlyKeepWellFormed(db: Db, fs: seq<FileVersion>)
    requires WellFormed(db) && SameExceptLatest(db.files, fs)
    ensures WellFormed(db.(files := fs))
  {
  }

  /** Clearing latest flags of one logical file keeps at most one latest
      row per logical file, and a latest row for every other logical file. */
  lemma ClearingKeepsLatestFacts(fs: seq<FileVersion>, fs1: seq<FileVersion>, p: ProjectId, name: string)
    requires SameExceptLatest(fs, fs1)
    requires forall j :: 0 <= j < |fs| && fs1[j].isLatest ==> fs[j].isLatest
    requires forall j :: 0 <= j < |fs| && !InGroup(fs[j], p, name) ==> fs1[j] == fs[j]
    requires LatestUnique(fs) && GroupsHaveLatest(fs)
    ensures LatestUnique(fs1)
    ensures forall a :: 0 <= a < |fs1| ==> HasLatest(fs1, fs1[a].project, fs1[a].name) || InGroup(fs1[a], p, name)
  {
    forall a, b | 0 <= a < |fs1| && 0 <= b < |fs1| && fs1[a].isLatest && fs1[b].isLatest
        && InGroup(fs1[b], fs1[a].project, fs1[a].name)
      ensures a == b
    {
      assert fs[a].isLatest && fs[b].isLatest;
    }
    forall a | 0 <= a < |fs1| && !InGroup(fs1[a], p, name)
      ensures HasLatest(fs1, fs1[a].project, fs1[a].name)
    {
      assert HasLatest(fs, fs[a].project, fs[a].name);
      var w :| 0 <= w < |fs| && InGroup(fs[w], fs[a].project, fs[a].name) && fs[w].isLatest;
      assert fs1[w] == fs[w];
    }
  }

  /** Marking row `i` latest, when its logical file has no latest row,
      restores both latest invariants. */
  lemma MarkLatestRestores(fs1: seq<FileVersion>, i: nat, p: ProjectId, name: string)
    requires i < |fs1| && InGroup(fs1[i], p, name)
    requires LatestUnique(fs1)
    requires forall j :: 0 <= j < |fs1| && InGroup(fs1[j], p, name) ==> !fs1[j].isLatest
    requires forall a :: 0 <= a < |fs1| ==> HasLatest(fs1, fs1[a].project, fs1[a].name) || InGroup(fs1[a], p, name)
    ensures var fs2 := fs1[i := fs1[i].(isLatest := true)];
      LatestUnique(fs2) && GroupsHaveLatest(fs2)
  {
    var fs2 := fs1[i := fs1[i].(isLatest := true)];
    forall a, b | 0 <= a < |fs2| && 0 <= b < |fs2| && fs2[a].isLatest && fs2[b].isLatest
        && InGroup(fs2[b], fs2[a].project, fs2[a].name)
      ensures a == b
    {
      if a != i && b != i {
        assert fs1[a].isLatest && fs1[b].isLatest;
      }
    }
    forall a | 0 <= a < |fs2| ensures HasLatest(fs2, fs2[a].project, fs2[a].name) {
      if InGroup(fs1[a], fs1[i].project, fs1[i].name) {
        assert InGroup(fs2[i], fs2[a].project, fs2[a].name) && fs2[i].isLatest;
      } else {
        var w :| 0 <= w < |fs1| && InGroup(fs1[w], fs1[a].project, fs1[a].name) && fs1[w].isLatest;
        assert w != i && fs2[w] == fs1[w];
      }
    }
  }

  /** `update_file` keeps every invariant of the store: one latest row per
      logical file, a latest row for every logical file, unique digests per
      project, gapless versions, well-formed rows. */
  lemma UpdateFileKeepsInvariant(db: Db, user: UserId, p: ProjectId, isPost: bool, form: ProjectForms.FormData, canStore: nat -> bool)
    requires StoreInvariant(db)
    ensures var r := UpdateFile(db, user, p, isPost, form, canStore);
      r.Ok? ==> StoreInvariant(r.value.db)
  {
    var r := UpdateFile(db, user, p, isPost, form, canStore);
    if r.Ok? {
      var up := form.file.value;
      match FirstWithHash(db.files, p, up.hash)
      case Some(i) => DuplicateKeepsInvariant(db, user, p, up, i);
      case None => FreshKeepsInvariant(db, user, p, up);
    }
  }

  /** `update_file` keeps the rows well formed on its own, so it composes
      with the other views, which keep only that much. */
  lemma UpdateFileKeepsWellFormed(db: Db, user: UserId, p: ProjectId, isPost: bool, form: ProjectForms.FormData, canStore: nat -> bool)
    requires WellFormed(db)
    ensures var r := UpdateFile(db, user, p, isPost, form, canStore);
      r.Ok? ==> WellFormed(r.value.db)
  {
    var r := UpdateFile(db, user, p, isPost, form, canStore);
    if r.Ok? {
      var up := form.file.value;
      match FirstWithHash(db.files, p, up.hash)
      case Some(i) => DuplicateKeepsWellFormed(db, user, p, up, i);
      case None => FreshKeepsWellFormed(db, user, p, up);
    }
  }

  /** The duplicate branch only flips latest flags. */
  lemma DuplicateKeepsWellFormed(db: Db, user: UserId, p: ProjectId, up: Upload, i: nat)
    requires WellFormed(db)
    requires FirstWithHash(db.files, p, up.hash) == Some(i)
    ensures WellFormed(CommitUpload(db, user, p, up).db)
  {
    var fs2 := MarkDuplicate(db.files, user, p, i);
    assert CommitUpload(db, user, p, up).db == db.(files := fs2);
    MarkAfterUnsetFlagsOnly(db.files, user, p, db.files[i].name, i);
    FlagsOnlyKeepWellFormed(db, fs2);
  }

  /** The non-duplicate branches flip latest flags and append the next row
      id, owned by the requester, who owns the project. */
  lemma FreshKeepsWellFormed(db: Db, user: UserId, p: ProjectId, up: Upload)
    requires WellFormed(db)
    requires p in db.projects && db.projects[p].owner == Some(user)
    requires FirstWithHash(db.files, p, up.hash).None?
    ensures WellFormed(CommitUpload(db, user, p, up).db)
  {
    var c := CommitUpload(db, user, p, up).db;
    match Newest(db.files, p, up.name)
    case Some(j) =>
      var fs1 := UnsetLatest(db.files, user, p, up.name);
      assert c.files == fs1 + [c.files[|fs1|]] && c.files[..|fs1|] == fs1;
      AppendWellFormed(db, fs1, c);
    case None =>
      assert c.files == db.files + [c.files[|db.files|]] && c.files[..|db.files|] == db.files;
      AppendWellFormed(db, db.files, c);
  }

  /** The rows after the duplicate branch: the requester's rows of the
      matched row's name cleared, then the matched row marked latest. */
  function MarkDuplicate(fs: seq<FileVersion>, user: UserId, p: ProjectId, i: nat): seq<FileVersion>
    requires i < |fs|
  {
    var fs1 := UnsetLatest(fs, user, p, fs[i].name);
    fs1[i := fs1[i].(isLatest := true)]
  }

  /** The duplicate branch keeps every invariant. */
  lemma DuplicateKeepsInvariant(db: Db, user: UserId, p: ProjectId, up: Upload, i: nat)
    requires StoreInvariant(db)
    requires p in db.projects && db.projects[p].owner == Some(user)
    requires FirstWithHash(db.files, p, up.hash) == Some(i)
    ensures StoreInvariant(CommitUpload(db, user, p, up).db)
  {
    assert CommitUpload(db, user, p, up).db == db.(files := MarkDuplicate(db.files, user, p, i));
    MarkDuplicateKeepsInvariant(db, user, p, i);
  }

  /** Re-marking a row of the requester's project as the latest of its
      logical file keeps every invariant. */
  lemma MarkDuplicateKeepsInvariant(db: Db, user: UserId, p: ProjectId, i: nat)
    requires StoreInvariant(db)
    requires p in db.projects && db.projects[p].owner == Some(user)
    requires i < |db.files| && db.files[i].project == p
    ensures StoreInvariant(db.(files := MarkDuplicate(db.files, user, p, i)))
  {
    var fs := db.files;
    var fs2 := MarkDuplicate(fs, user, p, i);
    MarkAfterUnsetFlagsOnly(fs, user, p, fs[i].name, i);
    assert LatestUnique(fs2) && GroupsHaveLatest(fs2) by {
      OwnerOwnsProjectRows(db, p, user);
      DuplicateLatestFacts(fs, user, p, i);
    }
    assert HashUnique(fs2) && VersionsGapless(fs2) by {
      FlagsOnlyKeepKeys(fs, fs2);
    }
    assert WellFormed(db.(files := fs2)) by {
      FlagsOnlyKeepWellFormed(db, fs2);
    }
  }

  /** The non-duplicate branches keep every invariant. */
  lemma FreshKeepsInvariant(db: Db, user: UserId, p: ProjectId, up: Upload)
    requires StoreInvariant(db)
    requires p in db.projects && db.projects[p].owner == Some(user)
    requires FirstWithHash(db.files, p, up.hash).None?
    ensures StoreInvariant(CommitUpload(db, user, p, up).db)
  {
    FreshRowShape(db, user, p, up);
    FreshRowKeepsInvariant(db, user, p, up, CommitUpload(db, user, p, up).db);
  }

  /** The rows after a non-duplicate upload: the requester's rows of the
      name cleared, then one latest row whose version is one past the
      number of rows the name had; the other tables are kept and the row
      counter moves on. */
  predicate FreshShape(db: Db, user: UserId, p: ProjectId, up: Upload, c: Db)
  {
    && |c.files| == |db.files| + 1
    && c.files == UnsetLatest(db.files, user, p, up.name) + [c.files[|db.files|]]
    && c.files[|db.files|] == FileVersion(db.nextFile, p, Some(user), up.name, c.files[|db.files|].folder,
         up.hash, GroupCount(db.files, p, up.name) + 1, true, up.key)
    && c.projects == db.projects && c.members == db.members && c.nextProject == db.nextProject
    && c.nextFile == db.nextFile + 1
  }

  /** Appending, after clearing the requester's latest rows of its name,
      one latest row with new content and the next version keeps every
      invariant. */
  lemma FreshRowKeepsInvariant(db: Db, user: UserId, p: ProjectId, up: Upload, db': Db)
    requires StoreInvariant(db)
    requires p in db.projects && db.projects[p].owner == Some(user)
    requires forall j :: 0 <= j < |db.files| ==> !HashIn(db.files[j], p, up.hash)
    requires FreshShape(db, user, p, up, db')
    ensures StoreInvariant(db')
  {
    var fs := db.files;
    var row := db'.files[|fs|];
    var fs1 := UnsetLatest(fs, user, p, row.name);
    assert LatestUnique(db'.files) && GroupsHaveLatest(db'.files) by {
      OwnerOwnsProjectRows(db, p, user);
      FreshLatestFacts(fs, user, p, row);
    }
    assert HashUnique(db'.files) && VersionsGapless(db'.files) by {
      FreshKeysFacts(fs, user, p, row);
    }
    assert WellFormed(db') by {
      assert SameExceptLatest(fs, fs1) && fs1 == db'.files[..|fs|];
      AppendWellFormed(db, fs1, db');
    }
  }

  /** The shape of the rows after a non-duplicate upload. */
  lemma FreshRowShape(db: Db, user: UserId, p: ProjectId, up: Upload)
    requires VersionsBounded(db.files)
    requires FirstWithHash(db.files, p, up.hash).None?
    ensures FreshShape(db, user, p, up, CommitUpload(db, user, p, up).db)
  {
    match Newest(db.files, p, up.name)
    case Some(j) => NewVersionShape(db, user, p, up, j);
    case None => NewFileShape(db, user, p, up);
  }

  /** A further version of a stored name: one past its highest version,
      which under gapless versions is its number of rows. */
  lemma NewVersionShape(db: Db, user: UserId, p: ProjectId, up: Upload, j: nat)
    requires VersionsBounded(db.files)
    requires FirstWithHash(db.files, p, up.hash).None?
    requires Newest(db.files, p, up.name) == Some(j)
    ensures FreshShape(db, user, p, up, CommitUpload(db, user, p, up).db)
  {
    var fs := db.files;
    assert fs[j].version == GroupCount(fs, p, up.name) by {
      NewestIsCount(fs, p, up.name, j);
    }
    var fs1 := UnsetLatest(fs, user, p, up.name);
    assert CommitUpload(db, user, p, up).db
      == AppendVersion(db.(files := fs1), user, p, up, fs[j].version + 1, fs[j].folder, AddedNewFile);
  }

  /** Version 1 of a name the project lacks: nothing is cleared. */
  lemma NewFileShape(db: Db, user: UserId, p: ProjectId, up: Upload)
    requires FirstWithHash(db.files, p, up.hash).None?
    requires Newest(db.files, p, up.name).None?
    ensures FreshShape(db, user, p, up, CommitUpload(db, user, p, up).db)
  {
    var fs := db.files;
    assert GroupCount(fs, p, up.name) == 0 by {
      GroupCountZero(fs, p, up.name);
    }
    assert UnsetLatest(fs, user, p, up.name) == fs by {
      var fs1 := UnsetLatest(fs, user, p, up.name);
      forall k | 0 <= k < |fs| ensures fs1[k] == fs[k] {
        assert !InGroup(fs[k], p, up.name);
      }
    }
    assert CommitUpload(db, user, p, up).db == AppendVersion(db, user, p, up, 1, FolderFor(up.name), CreateNewFileVersion);
  }

  /** Latest flags after a non-duplicate upload: the appended row is the one
      latest row of its logical file, and every other logical file keeps its
      latest row. */
  lemma FreshLatestFacts(fs: seq<FileVersion>, user: UserId, p: ProjectId, row: FileVersion)
    requires ProjectRowsOwnedBy(fs, p, user)
    requires LatestUnique(fs) && GroupsHaveLatest(fs)
    requires row.project == p && row.isLatest
    ensures var fs' := UnsetLatest(fs, user, p, row.name) + [row];
      LatestUnique(fs') && GroupsHaveLatest(fs')
  {
    var fs1 := UnsetLatest(fs, user, p, row.name);
    UnsetClearsLogicalFile(fs, user, p, row.name);
    ClearingKeepsLatestFacts(fs, fs1, p, row.name);
    AppendLatestUnique(fs1, row);
    AppendGroupsHaveLatest(fs1, row);
  }

  /** Digests and versions after a non-duplicate upload: new content and
      version N+1 of a logical file of N rows keep both invariants. */
  lemma FreshKeysFacts(fs: seq<FileVersion>, user: UserId, p: ProjectId, row: FileVersion)
    requires HashUnique(fs) && VersionsGapless(fs)
    requires forall j :: 0 <= j < |fs| ==> !HashIn(fs[j], row.project, row.hash)
    requires row.project == p && row.version == GroupCount(fs, p, row.name) + 1
    ensures var fs' := UnsetLatest(fs, user, p, row.name) + [row];
      HashUnique(fs') && VersionsGapless(fs')
  {
    var fs1 := UnsetLatest(fs, user, p, row.name);
    GroupCountSameKeys(fs, fs1, p, row.name);
    FlagsOnlyKeepKeys(fs, fs1);
    AppendHashUnique(fs1, row);
    AppendGaplessBounded(fs1, row);
    AppendGaplessDistinct(fs1, row);
  }

  /** Appending the next row id, owned by the project owner, keeps the rows
      well formed. */
  lemma AppendWellFormed(db: Db, fs1: seq<FileVersion>, db': Db)
    requires WellFormed(db) && SameExceptLatest(db.files, fs1)
    requires |db'.files| == |fs1| + 1 && db'.files[..|fs1|] == fs1
    requires db'.projects == db.projects && db'.members == db.members && db'.nextProject == db.nextProject
    requires db'.nextFile == db.nextFile + 1
    requires var row := db'.files[|fs1|];
      row.id == db.nextFile && row.project in db.projects && row.owner == db.projects[row.project].owner
    ensures WellFormed(db')
  {
    var n := |fs1|;
    forall i | 0 <= i < n ensures db'.files[i] == fs1[i] {
      assert db'.files[..n][i] == db'.files[i];
    }
  }

  /** A latest row appended to a logical file whose flags are all clear
      leaves one latest row per logical file. */
  lemma AppendLatestUnique(fs: seq<FileVersion>, row: FileVersion)
    requires LatestUnique(fs)
    requires forall j :: 0 <= j < |fs| && InGroup(fs[j], row.project, row.name) ==> !fs[j].isLatest
    ensures LatestUnique(fs + [row])
  {
    var fs' := fs + [row];
    forall a, b | 0 <= a < |fs'| && 0 <= b < |fs'| && fs'[a].isLatest && fs'[b].isLatest
        && InGroup(fs'[b], fs'[a].project, fs'[a].name)
      ensures a == b
    {
      if a < |fs| && b < |fs| {
        assert fs'[a] == fs[a] && fs'[b] == fs[b];
      }
    }
  }

  /** Appending a latest row gives its own logical file a latest row and
      takes none away from the others. */
  lemma AppendGroupsHaveLatest(fs: seq<FileVersion>, row: FileVersion)
    requires forall a :: 0 <= a < |fs| ==> HasLatest(fs, fs[a].project, fs[a].name) || InGroup(fs[a], row.project, row.name)
    requires row.isLatest
    ensures GroupsHaveLatest(fs + [row])
  {
    var fs' := fs + [row];
    var n := |fs|;
    assert fs'[n] == row;
    forall i | 0 <= i < |fs'|
      ensures HasLatest(fs', fs'[i].project, fs'[i].name)
    {
      if i < n && !InGroup(fs[i], row.project, row.name) {
        var w :| 0 <= w < n && InGroup(fs[w], fs[i].project, fs[i].name) && fs[w].isLatest;
        assert fs'[w] == fs[w];
      } else {
        assert InGroup(fs'[n], fs'[i].project, fs'[i].name) && fs'[n].isLatest;
      }
    }
  }

  /** Content new to the project keeps digests unique. */
  lemma AppendHashUnique(fs: seq<FileVersion>, row: FileVersion)
    requires HashUnique(fs)
    requires forall j :: 0 <= j < |fs| ==> !HashIn(fs[j], row.project, row.hash)
    ensures HashUnique(fs + [row])
  {
    var fs' := fs + [row];
    forall a, b | 0 <= a < |fs'| && 0 <= b < |fs'| && fs'[a].project == fs'[b].project && fs'[a].hash == fs'[b].hash
      ensures a == b
    {
      if a < |fs| && b < |fs| {
        assert fs'[a] == fs[a] && fs'[b] == fs[b];
      }
    }
  }

  /** Version N+1 appended to a logical file of N rows keeps every version
      within its logical file's count, and the count itself present. */
  lemma AppendGaplessBounded(fs: seq<FileVersion>, row: FileVersion)
    requires VersionsBounded(fs)
    requires row.version == GroupCount(fs, row.project, row.name) + 1
    ensures VersionsBounded(fs + [row])
  {
    var fs' := fs + [row];
    var n := |fs|;
    assert fs'[n] == row;
    forall i | 0 <= i < |fs'|
      ensures 1 <= fs'[i].version <= GroupCount(fs', fs'[i].project, fs'[i].name)
      ensures HasVersion(fs', fs'[i].project, fs'[i].name, GroupCount(fs', fs'[i].project, fs'[i].name))
    {
      var f := fs'[i];
      GroupCountAppend(fs, row, f.project, f.name);
      if i < n && !InGroup(row, f.project, f.name) {
        assert f == fs[i];
        var c := GroupCount(fs, f.project, f.name);
        assert HasVersion(fs, f.project, f.name, c);
        var w :| 0 <= w < n && InGroup(fs[w], f.project, f.name) && fs[w].version == c;
        assert fs'[w] == fs[w];
      } else if i < n {
        assert f == fs[i];
        assert InGroup(fs'[n], f.project, f.name);
      } else {
        assert InGroup(fs'[n], f.project, f.name);
      }
    }
  }

  /** Version N+1 appended to a logical file of N rows is a number no other
      row of it carries. */
  lemma AppendGaplessDistinct(fs: seq<FileVersion>, row: FileVersion)
    requires VersionsBounded(fs) && VersionsDistinct(fs)
    requires row.version == GroupCount(fs, row.project, row.name) + 1
    ensures VersionsDistinct(fs + [row])
  {
    var fs' := fs + [row];
    var n := |fs|;
    forall a, b | 0 <= a < |fs'| && 0 <= b < |fs'| && InGroup(fs'[b], fs'[a].project, fs'[a].name)
        && fs'[a].version == fs'[b].version
      ensures a == b
    {
      if a < n && b < n {
        assert fs'[a] == fs[a] && fs'[b] == fs[b];
      }
    }
  }

  /** Under the store invariant, the highest version of a non-empty logical
      file equals its number of rows. */
  lemma NewestIsCount(fs: seq<FileVersion>, p: ProjectId, name: string, j: nat)
    requires VersionsBounded(fs)
    requires j < |fs| && InGroup(fs[j], p, name)
    requires forall m :: 0 <= m < |fs| && InGroup(fs[m], p, name) ==> fs[m].version <= fs[j].version
    ensures fs[j].version == GroupCount(fs, p, name)
  {
    var c := GroupCount(fs, p, name);
    assert HasVersion(fs, p, name, c);
  }

  // ---------------------------------------------------------------------
  // upload_project

  /** `upload_project`: a POST with a valid form whose file is within the
      per-file cap and accepted by the quota predicate stores the file as
      version 1, latest, of the project the form resolves to, with the
      folder derived from the file name and an "uploaded new file" entry.
      The size cap is checked before the quota, and both before any write. */
  function UploadProject(db: Db, user: UserId, isPost: bool, form: ProjectForms.FormData, maxFileSize: nat, canStore: nat -> bool): (r: Result<Db, UploadError>)
    requires WellFormed(db)
    ensures !isPost ==> r == Err(NotSubmitted)
    ensures isPost && ProjectForms.Validate(db.projects, Some(user), form).Err? ==> r == Err(InvalidForm)
    ensures
      (isPost && ProjectForms.Validate(db.projects, Some(user), form).Ok? && form.file.value.size > maxFileSize)
      ==> r == Err(FileTooLarge)
    ensures
      (isPost && ProjectForms.Validate(db.projects, Some(user), form).Ok? && form.file.value.size <= maxFileSize
       && !canStore(form.file.value.size))
      ==> r == Err(QuotaExceeded)
    ensures r.Ok? <==>
      && isPost && ProjectForms.Validate(db.projects, Some(user), form).Ok?
      && form.file.value.size <= maxFileSize && canStore(form.file.value.size)
    ensures r.Ok? ==>
      && isPost && form.file.Some?
      && form.file.value.size <= maxFileSize && canStore(form.file.value.size)
      && var up := form.file.value;
      && var db' := r.value;
      && |db'.files| == |db.files| + 1 && db'.files[..|db.files|] == db.files
      && var row := db'.files[|db.files|];
      && row == FileVersion(db.nextFile, row.project, Some(user), up.name, FolderFor(up.name), up.hash, 1, true, up.key)
      && db'.activity == db.activity + [Activity(db.nextFile, user, UploadedNewFile)]
      && row.project in db'.projects && db'.projects[row.project].owner == Some(user)
      && db'.nextFile == db.nextFile + 1
      && (form.project.Some? ==>
            row.project == form.project.value && db'.projects == db.projects
            && db'.members == db.members && db'.nextProject == db.nextProject)
      && (form.project.None? ==>
            ProjectForms.NewProjectFor(db, db', row.project, Some(user), Strip(form.newProjectName)))
      && WellFormed(db')
  {
    if !isPost then Err(NotSubmitted)
    else
      var v := ProjectForms.Validate(db.projects, Some(user), form);
      if v.Err? then Err(InvalidForm)
      else
        var up := v.value.file.value;
        if up.size > maxFileSize then Err(FileTooLarge)
        else if !canStore(up.size) then Err(QuotaExceeded)
        else
          var (db1, pid) := ProjectForms.ResolveProject(db, Some(user), v.value);
          var row := FileVersion(db.nextFile, pid, Some(user), up.name, FolderFor(up.name), up.hash, 1, true, up.key);
          var db' := AppendVersion(db1, user, pid, up, 1, FolderFor(up.name), UploadedNewFile);
          assert db'.files == db.files + [row] && db'.files[|db.files|] == row;
          assert db'.files[..|db.files|] == db.files;
          assert WellFormed(db') by {
            AppendWellFormed(db1, db1.files, db');
          }
          Ok(db')
  }

  /** A file above the per-file cap is refused as too large even when the
      quota would refuse it too: the size check comes first. */
  lemma UploadSizeCheckedBeforeQuota(db: Db, user: UserId, form: ProjectForms.FormData, maxFileSize: nat, canStore: nat -> bool)
    requires WellFormed(db)
    requires ProjectForms.Validate(db.projects, Some(user), form).Ok?
    requires form.file.value.size > maxFileSize && !canStore(form.file.value.size)
    ensures UploadProject(db, user, true, form, maxFileSize, canStore) == Err(FileTooLarge)
    ensures UploadProject(db, user, true, form, maxFileSize, canStore) != Err(QuotaExceeded)
  {
  }

  /** Like `ProjectForm.save`, `upload_project` never clears an old latest
      flag: uploading a name the chosen project already has as latest leaves
      two latest rows for it. */
  lemma UploadProjectBreaksLatestUnique(db: Db, user: UserId, form: ProjectForms.FormData, maxFileSize: nat, canStore: nat -> bool, j: nat)
    requires WellFormed(db)
    requires UploadProject(db, user, true, form, maxFileSize, canStore).Ok?
    requires form.project.Some?
    requires j < |db.files| && db.files[j].isLatest && InGroup(db.files[j], form.project.value, form.file.value.name)
    ensures !LatestUnique(UploadProject(db, user, true, form, maxFileSize, canStore).value.files)
  {
    var fs := UploadProject(db, user, true, form, maxFileSize, canStore).value.files;
    var n := |db.files|;
    assert fs[j] == fs[..n][j] == db.files[j];
    assert fs[n].isLatest && InGroup(fs[n], fs[j].project, fs[j].name);
  }

  // ---------------------------------------------------------------------
  // delete_file

  datatype DeleteError = FileNotFound  // no such row in a project of the requester (404)

  /** Index of the row with primary key `id`, if any. */
  function FileIndex(fs: seq<FileVersion>, id: nat): (r: Option<nat>)
    ensures r.Some? ==> r.value < |fs| && fs[r.value].id == id
    ensures r.None? <==> forall j :: 0 <= j < |fs| ==> fs[j].id != id
  {
    if |fs| == 0 then None
    else if fs[|fs| - 1].id == id then Some(|fs| - 1)
    else FileIndex(fs[..|fs| - 1], id)
  }

  /** `get_object_or_404(File, pk=id, project__owner=user)`. */
  function OwnedFile(db: Db, user: UserId, id: nat): (r: Option<nat>)
    ensures r.Some? ==>
      && r.value < |db.files| && db.files[r.value].id == id
      && db.files[r.value].project in db.projects && db.projects[db.files[r.value].project].owner == Some(user)
  {
    match FileIndex(db.files, id)
    case Some(k) =>
      if db.files[k].project in db.projects && db.projects[db.files[k].project].owner == Some(user) then Some(k)
      else None
    case None => None
  }

  /** The row `delete_file` acts on exists exactly when some row with that
      key lies in a project of the requester. */
  lemma OwnedFileFindsOwnedRow(db: Db, user: UserId, id: nat)
    requires WellFormed(db)
    ensures OwnedFile(db, user, id).None? <==>
      !exists k :: 0 <= k < |db.files| && db.files[k].id == id && db.projects[db.files[k].project].owner == Some(user)
  {
    if k :| 0 <= k < |db.files| && db.files[k].id == id && db.projects[db.files[k].project].owner == Some(user) {
      IdsUnique(db);
      assert FileIndex(db.files, id) == Some(k);
    }
  }

  /** `delete_file`: the row must lie in a project of the requester; on a
      POST a "deleted file" entry is logged for it and the row is removed,
      every other row kept in order; any other method changes nothing. */
  function DeleteFile(db: Db, user: UserId, id: nat, isPost: bool): (r: Result<Db, DeleteError>)
    requires WellFormed(db)
    ensures r.Err? <==> !exists k :: 0 <= k < |db.files| && db.files[k].id == id && db.projects[db.files[k].project].owner == Some(user)
    ensures r.Ok? && !isPost ==> r.value == db
    ensures r.Ok? && isPost ==>
      && |r.value.files| == |db.files| - 1
      && (forall j :: 0 <= j < |r.value.files| ==> r.value.files[j].id != id)
      && (forall j :: 0 <= j < |db.files| && db.files[j].id != id ==> db.files[j] in r.value.files)
      && r.value.activity == db.activity + [Activity(id, user, DeletedFile)]
      && r.value.projects == db.projects && r.value.members == db.members
      && WellFormed(r.value)
  {
    OwnedFileFindsOwnedRow(db, user, id);
    match OwnedFile(db, user, id)
    case None => Err(FileNotFound)
    case Some(k) =>
      if !isPost then Ok(db)
      else
        RemoveRowFacts(db, k);
        Ok(db.(files := RemoveAt(db.files, k), activity := db.activity + [Activity(id, user, DeletedFile)]))
  }

  /** The rows with row `k` taken out, the rest in order. */
  function RemoveAt(fs: seq<FileVersion>, k: nat): (r: seq<FileVersion>)
    requires k < |fs|
    ensures |r| == |fs| - 1
    ensures forall j :: 0 <= j < |r| ==> r[j] == (if j < k then fs[j] else fs[j + 1])
  {
    fs[..k] + fs[k + 1..]
  }

  /** Primary keys identify rows: `FileIndex` finds the one row with a key. */
  lemma IdsUnique(db: Db)
    requires WellFormed(db)
    ensures forall a, b :: 0 <= a < |db.files| && 0 <= b < |db.files| && db.files[a].id == db.files[b].id ==> a == b
    ensures forall k :: 0 <= k < |db.files| ==> FileIndex(db.files, db.files[k].id) == Some(k)
  {
    forall k | 0 <= k < |db.files| ensures FileIndex(db.files, db.files[k].id) == Some(k) {
      var r := FileIndex(db.files, db.files[k].id);
    }
  }

  /** Removing row `k` keeps the others and the rows well formed. */
  lemma RemoveRowFacts(db: Db, k: nat)
    requires WellFormed(db) && k < |db.files|
    ensures var fs := RemoveAt(db.files, k);
      && (forall j :: 0 <= j < |fs| ==> fs[j].id != db.files[k].id)
      && (forall j :: 0 <= j < |db.files| && j != k ==> db.files[j] in fs)
      && WellFormed(db.(files := fs))
  {
    RemoveDropsKey(db.files, k);
    RemoveKeepsOthers(db.files, k);
    RemoveKeepsWellFormed(db, k);
  }

  /** With increasing keys, no other row shares the removed row's key. */
  lemma RemoveDropsKey(fs: seq<FileVersion>, k: nat)
    requires IdsIncreasing(fs) && k < |fs|
    ensures forall j :: 0 <= j < |fs| - 1 ==> RemoveAt(fs, k)[j].id != fs[k].id
  {
    forall j | 0 <= j < |fs| - 1 ensures RemoveAt(fs, k)[j].id != fs[k].id {
      if j < k { assert fs[j].id < fs[k].id; } else { assert fs[k].id < fs[j + 1].id; }
    }
  }

  /** Every row but `k` is still there after the removal. */
  lemma RemoveKeepsOthers(fs: seq<FileVersion>, k: nat)
    requires k < |fs|
    ensures forall j :: 0 <= j < |fs| && j != k ==> fs[j] in RemoveAt(fs, k)
  {
    var r := RemoveAt(fs, k);
    forall j | 0 <= j < |fs| && j != k ensures fs[j] in r {
      if j < k { assert r[j] == fs[j]; } else { assert r[j - 1] == fs[j]; }
    }
  }

  lemma RemoveKeepsWellFormed(db: Db, k: nat)
    requires WellFormed(db) && k < |db.files|
    ensures WellFormed(db.(files := RemoveAt(db.files, k)))
  {
    var fs := RemoveAt(db.files, k);
    forall a, b | 0 <= a < b < |fs| ensures fs[a].id < fs[b].id {
      var a' := if a < k then a else a + 1;
      var b' := if b < k then b else b + 1;
      assert fs[a] == db.files[a'] && fs[b] == db.files[b'] && a' < b';
    }
  }

  /** Taking a row out keeps one latest row per logical file at most, unique
      digests and distinct versions. */
  lemma RemoveKeepsUniqueness(fs: seq<FileVersion>, k: nat)
    requires k < |fs|
    requires LatestUnique(fs) && HashUnique(fs) && VersionsDistinct(fs)
    ensures var fs' := RemoveAt(fs, k);
      LatestUnique(fs') && HashUnique(fs') && VersionsDistinct(fs')
  {
    var fs' := RemoveAt(fs, k);
    forall a | 0 <= a < |fs'| ensures fs'[a] == fs[if a < k then a else a + 1] {
    }
  }

  /** `delete_file` keeps latest flags and digests unique. */
  lemma DeleteFileKeepsUniqueness(db: Db, user: UserId, id: nat, isPost: bool)
    requires StoreInvariant(db)
    ensures var r := DeleteFile(db, user, id, isPost);
      r.Ok? ==> LatestUnique(r.value.files) && HashUnique(r.value.files) && VersionsDistinct(r.value.files)
  {
    match OwnedFile(db, user, id)
    case Some(k) => RemoveKeepsUniqueness(db.files, k);
    case None =>
  }

  /** Deleting the latest row of a logical file that has further versions
      leaves that logical file without a latest row: `delete_file` does not
      promote another version. */
  lemma DeleteLatestLeavesNoLatest(db: Db, user: UserId, k: nat, j: nat)
    requires WellFormed(db) && LatestUnique(db.files)
    requires k < |db.files| && db.files[k].isLatest && db.projects[db.files[k].project].owner == Some(user)
    requires j < |db.files| && j != k && InGroup(db.files[j], db.files[k].project, db.files[k].name)
    ensures DeleteFile(db, user, db.files[k].id, true).Ok?
    ensures !GroupsHaveLatest(DeleteFile(db, user, db.files[k].id, true).value.files)
  {
    DeleteOwnedRow(db, user, k);
    RemoveLatestLeavesNoLatest(db.files, k, j);
  }

  /** A POST to `delete_file` for an owned row removes exactly that row. */
  lemma DeleteOwnedRow(db: Db, user: UserId, k: nat)
    requires WellFormed(db)
    requires k < |db.files| && db.projects[db.files[k].project].owner == Some(user)
    ensures DeleteFile(db, user, db.files[k].id, true).Ok?
    ensures DeleteFile(db, user, db.files[k].id, true).value.files == RemoveAt(db.files, k)
  {
    assert OwnedFile(db, user, db.files[k].id) == Some(k) by {
      IdsUnique(db);
    }
  }

  /** Removing the one latest row of a logical file that has another row
      leaves that logical file with rows but no latest one. */
  lemma RemoveLatestLeavesNoLatest(fs: seq<FileVersion>, k: nat, j: nat)
    requires LatestUnique(fs)
    requires k < |fs| && fs[k].isLatest
    requires j < |fs| && j != k && InGroup(fs[j], fs[k].project, fs[k].name)
    ensures !GroupsHaveLatest(RemoveAt(fs, k))
  {
    var f := fs[k];
    var fs' := RemoveAt(fs, k);
    var j' := if j < k then j else j - 1;
    assert fs'[j'] == fs[j];
    forall w | 0 <= w < |fs'| && InGroup(fs'[w], f.project, f.name) ensures !fs'[w].isLatest {
      var w' := if w < k then w else w + 1;
      assert fs'[w] == fs[w'];
      assert w' != k;
    }
    assert !HasLatest(fs', fs'[j'].project, fs'[j'].name);
  }
}

=== FILE: gis_model.dfy ===
/** The records of the GIS file store as the views read and write them:
    projects, file version rows ("File"), the file activity log
    ("FileActivity") and project memberships ("ProjectMembership"), together
    with the invariants the versioning logic is meant to keep. The whole
    database is one immutable value, `Db`; every view is a function from one
    `Db` to the next. */
module GisModel {
  import opened Results

  type UserId = nat
  type ProjectId = nat

  /** A project row; `owner` is nullable in the schema the views use. */
  datatype Project = Project(owner: Option<UserId>, name: string, isDeleted: bool)

  /** One stored version of a logical file. `key` is the storage name the
      blob was saved under ("" when the row has no file attached). */
  datatype FileVersion = FileVersion(
    id: nat,
    project: ProjectId,
    owner: Option<UserId>,
    name: string,
    folder: string,
    hash: string,
    version: nat,
    isLatest: bool,
    key: string)

  /** An entry of the append-only activity log: which row, who, what. */
  datatype Activity = Activity(fileId: nat, owner: UserId, action: string)

  datatype Role = Admin | Viewer

  /** A membership row: `user` holds `role` in `project`, invited by `invitedBy`. */
  datatype Membership = Membership(project: ProjectId, user: UserId, role: Role, invitedBy: UserId)

  /** What an upload carries into the store: the client's file name, its
      size in bytes, its content digest (computed by the caller) and the
      storage name the blob is saved under. */
  datatype Upload = Upload(name: string, size: nat, hash: string, key: string)

  /** The database. Rows are kept in insertion (primary key) order;
      `nextProject` and `nextFile` are the next primary keys to hand out. */
  datatype Db = Db(
    projects: map<ProjectId, Project>,
    files: seq<FileVersion>,
    activity: seq<Activity>,
    members: seq<Membership>,
    nextProject: ProjectId,
    nextFile: nat)

  // ---------------------------------------------------------------------
  // Logical files

  /** The row belongs to the logical file `name` of project `p`. */
  predicate InGroup(f: FileVersion, p: ProjectId, name: string)
  {
    f.project == p && f.name == name
  }

  /** Number of stored versions of the logical file `(p, name)`. */
  function GroupCount(fs: seq<FileVersion>, p: ProjectId, name: string): nat
  {
    if |fs| == 0 then 0
    else GroupCount(fs[..|fs| - 1], p, name) + (if InGroup(fs[|fs| - 1], p, name) then 1 else 0)
  }

  /** Some version of `(p, name)` is marked latest. */
  predicate HasLatest(fs: seq<FileVersion>, p: ProjectId, name: string)
  {
    exists j :: 0 <= j < |fs| && InGroup(fs[j], p, name) && fs[j].isLatest
  }

  /** Some version of `(p, name)` carries version number `v`. */
  predicate HasVersion(fs: seq<FileVersion>, p: ProjectId, name: string, v: nat)
  {
    exists j :: 0 <= j < |fs| && InGroup(fs[j], p, name) && fs[j].version == v
  }

  // ---------------------------------------------------------------------
  // Invariants of the version store

  /** At most one row per logical file is marked latest. */
  predicate LatestUnique(fs: seq<FileVersion>)
  {
    forall i, j ::
      (0 <= i < |fs| && 0 <= j < |fs| && fs[i].isLatest && fs[j].isLatest
       && InGroup(fs[j], fs[i].project, fs[i].name)) ==> i == j
  }

  /** Every logical file that has versions has a latest one. */
  predicate GroupsHaveLatest(fs: seq<FileVersion>)
  {
    forall i :: 0 <= i < |fs| ==> HasLatest(fs, fs[i].project, fs[i].name)
  }

  /** No two rows of one project hold the same content digest. */
  predicate HashUnique(fs: seq<FileVersion>)
  {
    forall i, j ::
      0 <= i < |fs| && 0 <= j < |fs| && fs[i].project == fs[j].project && fs[i].hash == fs[j].hash ==> i == j
  }

  /** Every version of a logical file with N rows lies in 1..N, and N
      itself is present. */
  predicate VersionsBounded(fs: seq<FileVersion>)
  {
    forall i :: 0 <= i < |fs| ==>
      1 <= fs[i].version <= GroupCount(fs, fs[i].project, fs[i].name)
      && HasVersion(fs, fs[i].project, fs[i].name, GroupCount(fs, fs[i].project, fs[i].name))
  }

  /** No two rows of a logical file share a version number. */
  predicate VersionsDistinct(fs: seq<FileVersion>)
  {
    forall i, j ::
      (0 <= i < |fs| && 0 <= j < |fs| && InGroup(fs[j], fs[i].project, fs[i].name)
       && fs[i].version == fs[j].version) ==> i == j
  }

  /** The versions of a logical file with N rows are N distinct numbers in
      1..N: exactly 1, 2, ..., N. */
  predicate VersionsGapless(fs: seq<FileVersion>)
  {
    VersionsBounded(fs) && VersionsDistinct(fs)
  }

  /** Every row hangs off an existing project and is owned by that project's
      owner; ids are below the counters and distinct. */
  predicate WellFormed(db: Db)
  {
    && (forall i :: 0 <= i < |db.files| ==>
          db.files[i].project in db.projects
          && db.files[i].owner == db.projects[db.files[i].project].owner
          && db.files[i].id < db.nextFile)
    && IdsIncreasing(db.files)
    && (forall p :: p in db.projects ==> p < db.nextProject)
    && (forall i :: 0 <= i < |db.members| ==> db.members[i].project in db.projects)
  }

  /** Primary keys grow along the rows. */
  predicate IdsIncreasing(fs: seq<FileVersion>)
  {
    forall i, j :: 0 <= i < j < |fs| ==> fs[i].id < fs[j].id
  }

  /** The full set of guarantees the upload path is meant to keep. */
  predicate StoreInvariant(db: Db)
  {
    && WellFormed(db)
    && LatestUnique(db.files)
    && GroupsHaveLatest(db.files)
    && HashUnique(db.files)
    && VersionsGapless(db.files)
  }

  // ---------------------------------------------------------------------
  // Counting lemmas

  /** Appending a row adds one to its own logical file's count and nothing
      to any other's. */
  lemma GroupCountAppend(fs: seq<FileVersion>, f: FileVersion, p: ProjectId, name: string)
    ensures GroupCount(fs + [f], p, name) == GroupCount(fs, p, name) + (if InGroup(f, p, name) then 1 else 0)
  {
    assert (fs + [f])[..|fs|] == fs;
  }

  /** Rows that agree on project and name are counted alike. */
  lemma {:induction false} GroupCountSameKeys(a: seq<FileVersion>, b: seq<FileVersion>, p: ProjectId, name: string)
    requires |a| == |b|
    requires forall i :: 0 <= i < |a| ==> a[i].project == b[i].project && a[i].name == b[i].name
    ensures GroupCount(a, p, name) == GroupCount(b, p, name)
  {
    if |a| > 0 {
      GroupCountSameKeys(a[..|a| - 1], b[..|b| - 1], p, name);
    }
  }

  /** A logical file with a row in it has a positive count. */
  lemma {:induction false} GroupCountPositive(fs: seq<FileVersion>, i: nat)
    requires i < |fs|
    ensures GroupCount(fs, fs[i].project, fs[i].name) >= 1
  {
    if i < |fs| - 1 {
      GroupCountPositive(fs[..|fs| - 1], i);
    }
  }

  /** A logical file without rows has count zero. */
  lemma {:induction false} GroupCountZero(fs: seq<FileVersion>, p: ProjectId, name: string)
    requires forall j :: 0 <= j < |fs| ==> !InGroup(fs[j], p, name)
    ensures GroupCount(fs, p, name) == 0
  {
    if |fs| > 0 {
      GroupCountZero(fs[..|fs| - 1], p, name);
    }
  }

  // ---------------------------------------------------------------------
  // Memberships

  /** Number of membership rows of `user` in project `p`. */
  function MemberCount(ms: seq<Membership>, p: ProjectId, user: UserId): nat
  {
    if |ms| == 0 then 0
    else MemberCount(ms[..|ms| - 1], p, user) + (if ms[|ms| - 1].project == p && ms[|ms| - 1].user == user then 1 else 0)
  }

  /** No user holds two membership rows in one project. */
  predicate MembershipUnique(ms: seq<Membership>)
  {
    forall i, j ::
      (0 <= i < |ms| && 0 <= j < |ms| && ms[i].project == ms[j].project && ms[i].user == ms[j].user) ==> i == j
  }

  lemma MemberCountAppend(ms: seq<Membership>, m: Membership, p: ProjectId, user: UserId)
    ensures MemberCount(ms + [m], p, user) == MemberCount(ms, p, user) + (if m.project == p && m.user == user then 1 else 0)
  {
    assert (ms + [m])[..|ms|] == ms;
  }

  /** A project nobody is a member of has no member rows for anyone. */
  lemma {:induction false} MemberCountZero(ms: seq<Membership>, p: ProjectId, user: UserId)
    requires forall j :: 0 <= j < |ms| ==> ms[j].project != p
    ensures MemberCount(ms, p, user) == 0
  {
    if |ms| > 0 {
      MemberCountZero(ms[..|ms| - 1], p, user);
    }
  }
}

=== FILE: landing.dfy ===
/** The landing page's contact form: four fields, each stripped of
    surrounding whitespace; a reach-out record is stored only when the full
    name, the e-mail address and the message are all non-empty. */
module Landing {
  import opened Results
  import opened Text

  /** A stored reach-out. */
  datatype Reachout = Reachout(fullname: string, email: string, projectTopic: string, message: string)

  /** A flash message queued for the next page. */
  datatype Flash = Success(text: string) | Error(text: string)

  /** The reach-out table and the queue of flash messages. */
  datatype Site = Site(reachouts: seq<Reachout>, flashes: seq<Flash>)

  /** The submitted fields; `None` is a field missing from the POST. */
  datatype ContactPost = ContactPost(fullname: Option<string>, email: Option<string>, projectTopic: Option<string>, message: Option<string>)

  const ThanksText := "Thanks for reaching out! We'll get back to you soon."
  const FillAllText := "Please fill in all fields."

  /** `request.POST.get(field, '').strip()`. */
  function Field(v: Option<string>): (r: string)
    ensures v.None? ==> r == ""
    ensures v.Some? ==> r == Strip(v.value)
    ensures r == "" <==> v.None? || AllSpace(v.value)
  {
    match v
    case None => ""
    case Some(s) => Strip(s)
  }

  /** `contact`: on a POST, the stripped fields are stored with a thanks
      message when full name, e-mail and message are non-empty (the topic
      may be empty); otherwise only an error message is queued. Any other
      method changes nothing. */
  function Contact(site: Site, isPost: bool, post: ContactPost): (r: Site)
    ensures !isPost ==> r == site
    ensures isPost ==>
      var ok := Field(post.fullname) != "" && Field(post.email) != "" && Field(post.message) != "";
      && (ok ==> r.reachouts == site.reachouts + [Reachout(Field(post.fullname), Field(post.email), Field(post.projectTopic), Field(post.message))])
      && (!ok ==> r.reachouts == site.reachouts)
      && r.flashes == site.flashes + [if ok then Success(ThanksText) else Error(FillAllText)]
  {
    if !isPost then site
    else
      var fullname := Field(post.fullname);
      var email := Field(post.email);
      var topic := Field(post.projectTopic);
      var message := Field(post.message);
      if fullname != "" && email != "" && message != "" then
        Site(site.reachouts + [Reachout(fullname, email, topic, message)], site.flashes + [Success(ThanksText)])
      else
        Site(site.reachouts, site.flashes + [Error(FillAllText)])
  }

  /** A record is stored exactly when full name, e-mail and message each
      hold a non-whitespace character; the topic plays no part. */
  lemma ContactStoresIff(site: Site, post: ContactPost)
    ensures |Contact(site, true, post).reachouts| == |site.reachouts| + 1 <==>
      && post.fullname.Some? && !AllSpace(post.fullname.value)
      && post.email.Some? && !AllSpace(post.email.value)
      && post.message.Some? && !AllSpace(post.message.value)
    ensures |Contact(site, true, post).reachouts| == |site.reachouts| + 1 ||
      Contact(site, true, post).reachouts == site.reachouts
  {
  }

  /** Every stored field is already stripped: stripping it again changes
      nothing, and it neither starts nor ends with whitespace. */
  lemma ContactStoresStripped(site: Site, post: ContactPost)
    requires |Contact(site, true, post).reachouts| > |site.reachouts|
    ensures var rec := Contact(site, true, post).reachouts[|site.reachouts|];
      && Strip(rec.fullname) == rec.fullname && Strip(rec.email) == rec.email
      && Strip(rec.projectTopic) == rec.projectTopic && Strip(rec.message) == rec.message
  {
    StripFieldIdempotent(post.fullname);
    StripFieldIdempotent(post.email);
    StripFieldIdempotent(post.projectTopic);
    StripFieldIdempotent(post.message);
  }

  lemma StripFieldIdempotent(v: Option<string>)
    ensures Strip(Field(v)) == Field(v)
  {
    if v.Some? {
      StripIdempotent(v.value);
    }
  }
}

=== FILE: legacy_projects.dfy ===
/** The single-file project model of `gis_database/models.py`: where its
    upload is stored, the three limits `clean` enforces (project count,
    total storage, single-file size) and in which order, what `save` does
    before validating, and the order of the two deletions in `delete`. */
module LegacyProjects {
  import opened Results
  import opened Text
  import GisModel

  /** The account id, shared with the GIS store. */
  type UserId = GisModel.UserId

  /** The per-user limits. */
  const MaxFiles := 3
  const MaxStorageMb := 10
  const MaxFileSize := 50 * 1024 * 1024
  const Mb := 1024 * 1024

  /** A stored upload: its storage name and size in bytes. A file field
      whose name is empty holds no file. */
  datatype StoredFile = StoredFile(name: string, size: nat)

  /** A project row. `pk` 0 is an instance not saved yet; `user` 0 is an
      unset user; `owner` is the nullable owner text. */
  datatype LegacyProject = LegacyProject(
    pk: nat,
    user: UserId,
    file: StoredFile,
    name: string,
    owner: Option<string>,
    archived: bool)

  /** The project table and the highest primary key handed out so far. */
  datatype Table = Table(rows: seq<LegacyProject>, lastPk: nat)

  predicate HasFile(p: LegacyProject)
  {
    p.file.name != ""
  }

  // ---------------------------------------------------------------------
  // user_upload_path

  const UploadPrefix := "uploads/user_"

  /** `user_upload_path`: the storage name of a user's upload. */
  function UserUploadPath(user: UserId, filename: string): (r: string)
    ensures r == UploadPrefix + NatToString(user) + "/" + filename
    ensures |r| > |UploadPrefix| && r[..|UploadPrefix|] == UploadPrefix
  {
    var r := UploadPrefix + NatToString(user) + "/" + filename;
    assert r[..|UploadPrefix|] == UploadPrefix;
    r
  }

  /** Index of the first '/' in `s`, or -1. */
  function FindSlash(s: string): (r: int)
    ensures -1 <= r < |s|
    ensures r >= 0 ==> s[r] == '/'
    ensures forall k :: 0 <= k < |s| && (r == -1 || k < r) ==> s[k] != '/'
  {
    if |s| == 0 then -1
    else if s[0] == '/' then 0
    else
      var i := FindSlash(s[1..]);
      if i == -1 then -1 else i + 1
  }

  /** Reads a storage name back into the user id and the file name. */
  function ParseUploadPath(path: string): (r: Option<(UserId, string)>)
  {
    if |path| < |UploadPrefix| || path[..|UploadPrefix|] != UploadPrefix then None
    else
      var rest := path[|UploadPrefix|..];
      var i := FindSlash(rest);
      if i <= 0 || !AllDigits(rest[..i]) then None
      else Some((ParseNat(rest[..i]), rest[i + 1..]))
  }

  /** The storage name determines the user and the file name: reading it
      back gives both. */
  lemma UploadPathRoundTrip(user: UserId, filename: string)
    ensures ParseUploadPath(UserUploadPath(user, filename)) == Some((user, filename))
  {
    var digits := NatToString(user);
    var path := UserUploadPath(user, filename);
    var rest := path[|UploadPrefix|..];
    assert rest == digits + "/" + filename;
    forall k | 0 <= k < |digits| ensures rest[k] != '/' {
      assert rest[k] == digits[k] && IsDigit(digits[k]);
    }
    assert rest[|digits|] == '/';
    assert FindSlash(rest) == |digits|;
    assert rest[..|digits|] == digits;
    assert rest[|digits| + 1..] == filename;
    ParseNatToString(user);
  }

  // ---------------------------------------------------------------------
  // clean

  datatype CleanError =
    | TooManyProjects    // MAX_FILES other active projects already
    | StorageExceeded    // the user's total would pass MAX_STORAGE_MB
    | FileTooLarge       // this file alone passes MAX_FILE_SIZE

  /** The rows `clean` measures against: the user's non-archived projects,
      the project itself excluded once it has a primary key. */
  function Others(rows: seq<LegacyProject>, self: LegacyProject): (r: seq<LegacyProject>)
    ensures |r| <= |rows|
    ensures forall p :: p in r <==>
      p in rows && p.user == self.user && !p.archived && (self.pk != 0 ==> p.pk != self.pk)
  {
    if |rows| == 0 then []
    else
      var p := rows[|rows| - 1];
      Others(rows[..|rows| - 1], self)
        + (if p.user == self.user && !p.archived && (self.pk != 0 ==> p.pk != self.pk) then [p] else [])
  }

  /** Bytes held by the rows that have a file. */
  function UsedBytes(rows: seq<LegacyProject>): nat
  {
    if |rows| == 0 then 0
    else UsedBytes(rows[..|rows| - 1]) + (if HasFile(rows[|rows| - 1]) then rows[|rows| - 1].file.size else 0)
  }

  function CurrentBytes(self: LegacyProject): nat
  {
    if HasFile(self) then self.file.size else 0
  }

  /** `Project.clean`: count, then total storage, then single-file size;
      the first failing check is the one reported. The storage test
      divides by 2^20 in floating point; with a power of two as divisor and
      10 as bound that comparison is exactly `bytes > 10 * 2^20`. */
  function Clean(rows: seq<LegacyProject>, self: LegacyProject): (r: Result<(), CleanError>)
    ensures r == Err(TooManyProjects) <==> |Others(rows, self)| >= MaxFiles
    ensures r == Err(StorageExceeded) <==>
      |Others(rows, self)| < MaxFiles && UsedBytes(Others(rows, self)) + CurrentBytes(self) > MaxStorageMb * Mb
    ensures r != Err(FileTooLarge)
  {
    var others := Others(rows, self);
    if |others| >= MaxFiles then Err(TooManyProjects)
    else if UsedBytes(others) + CurrentBytes(self) > MaxStorageMb * Mb then Err(StorageExceeded)
    else if HasFile(self) && self.file.size > MaxFileSize then Err(FileTooLarge)
    else Ok(())
  }

  /** What a valid project is, stated independently of the check order:
      fewer than three other active projects, at most 10 MiB in all, and a
      file of at most 50 MiB. */
  predicate Admissible(rows: seq<LegacyProject>, self: LegacyProject)
  {
    && |Others(rows, self)| < MaxFiles
    && UsedBytes(Others(rows, self)) + CurrentBytes(self) <= MaxStorageMb * Mb
    && CurrentBytes(self) <= MaxFileSize
  }

  /** `clean` accepts exactly the admissible projects. */
  lemma CleanOkIffAdmissible(rows: seq<LegacyProject>, self: LegacyProject)
    ensures Clean(rows, self).Ok? <==> Admissible(rows, self)
  {
  }

  /** The single-file check never fires: any file it would reject is
      already larger than the whole storage allowance. */
  lemma FileTooLargeUnreachable(rows: seq<LegacyProject>, self: LegacyProject)
    requires HasFile(self) && self.file.size > MaxFileSize
    ensures Clean(rows, self) == Err(TooManyProjects) || Clean(rows, self) == Err(StorageExceeded)
  {
  }

  /** Rows with primary key `pk` taken out. */
  function WithoutPk(rows: seq<LegacyProject>, pk: nat): (r: seq<LegacyProject>)
    ensures forall p :: p in r <==> p in rows && p.pk != pk
  {
    if |rows| == 0 then []
    else WithoutPk(rows[..|rows| - 1], pk) + (if rows[|rows| - 1].pk != pk then [rows[|rows| - 1]] else [])
  }

  /** Re-validating a saved project ignores its own stored row: the result
      is the same as validating against the table without that row. */
  lemma {:induction false} CleanExcludesSelf(rows: seq<LegacyProject>, self: LegacyProject)
    requires self.pk != 0
    ensures Others(rows, self) == Others(WithoutPk(rows, self.pk), self)
    ensures Clean(rows, self) == Clean(WithoutPk(rows, self.pk), self)
  {
    if |rows| > 0 {
      var init := rows[..|rows| - 1];
      CleanExcludesSelf(init, self);
      var w := WithoutPk(rows, self.pk);
      if rows[|rows| - 1].pk != self.pk {
        assert w[..|w| - 1] == WithoutPk(init, self.pk);
      } else {
        assert w == WithoutPk(init, self.pk);
      }
    }
  }

  // ---------------------------------------------------------------------
  // save

  datatype SaveError =
    | UserNotSet                   // no user set on the instance
    | Invalid(error: CleanError)   // `full_clean` raised through `clean`

  /** `Project.save`: a user must be set; an empty owner becomes the user's
      username (`usernameOf`); the instance is validated; a new instance is
      inserted under a primary key above every one handed out, a saved one
      replaces its row.
      Field-level validation of `full_clean` beyond `clean` is not part of
      this model. */
  function Save(table: Table, self: LegacyProject, usernameOf: UserId -> string): (r: Result<(Table, LegacyProject), SaveError>)
    ensures self.user == 0 ==> r == Err(UserNotSet)
    ensures self.user != 0 ==> (r.Ok? <==> Clean(table.rows, self).Ok?)
    ensures self.user != 0 && Clean(table.rows, self).Err? ==> r == Err(Invalid(Clean(table.rows, self).error))
    ensures r.Ok? ==>
      && var (t, saved) := r.value;
      && saved.owner == (if self.owner.None? || self.owner == Some("") then Some(usernameOf(self.user)) else self.owner)
      && saved == self.(pk := saved.pk, owner := saved.owner)
      && saved.pk != 0
      && saved in t.rows
      && (self.pk != 0 ==> saved.pk == self.pk)
      && (self.pk == 0 ==> saved.pk > table.lastPk)
      && t.lastPk >= saved.pk
      && (forall p :: p in table.rows && p.pk != saved.pk ==> p in t.rows)
      && (forall p :: p in t.rows ==> p == saved || (p in table.rows && p.pk != saved.pk))
  {
    if self.user == 0 then Err(UserNotSet)
    else
      var owner := if self.owner.None? || self.owner == Some("") then Some(usernameOf(self.user)) else self.owner;
      var named := self.(owner := owner);
      CleanIgnoresOwner(table.rows, self, named);
      match Clean(table.rows, named)
      case Err(e) => Err(Invalid(e))
      case Ok(_) =>
        var pk := if self.pk != 0 then self.pk else table.lastPk + 1;
        var saved := named.(pk := pk);
        Ok((Table(Upsert(table.rows, saved), if pk > table.lastPk then pk else table.lastPk), saved))
  }

  /** The rows with `saved` in place of any row under its key: exactly the
      saved row and the rows under other keys. */
  function Upsert(rows: seq<LegacyProject>, saved: LegacyProject): (r: seq<LegacyProject>)
    ensures forall p :: p in r <==> p == saved || (p in rows && p.pk != saved.pk)
  {
    WithoutPk(rows, saved.pk) + [saved]
  }

  /** Validation does not read the owner text. */
  lemma CleanIgnoresOwner(rows: seq<LegacyProject>, a: LegacyProject, b: LegacyProject)
    requires b == a.(owner := b.owner)
    ensures Clean(rows, a) == Clean(rows, b)
  {
    OthersIgnoresOwner(rows, a, b);
  }

  /** The owner text plays no part in `clean`. */
  lemma {:induction false} OthersIgnoresOwner(rows: seq<LegacyProject>, a: LegacyProject, b: LegacyProject)
    requires a.user == b.user && a.pk == b.pk
    ensures Others(rows, a) == Others(rows, b)
  {
    if |rows| > 0 {
      OthersIgnoresOwner(rows[..|rows| - 1], a, b);
    }
  }

  /** An unset owner is filled in before validation: a saved project always
      has a non-empty owner when usernames are non-empty. */
  lemma SaveFillsOwner(table: Table, self: LegacyProject, usernameOf: UserId -> string)
    requires Save(table, self, usernameOf).Ok?
    requires usernameOf(self.user) != ""
    ensures var saved := Save(table, self, usernameOf).value.1;
      saved.owner.Some? && saved.owner.value != ""
  {
  }

  // ---------------------------------------------------------------------
  // delete

  datatype DeleteError = NotSaved  // an instance without primary key cannot be deleted

  /** The observable steps of `delete`, in order. */
  datatype Effect = RowDeleted(pk: nat) | BlobDeleted(name: string)

  /** `Project.delete`: the row goes first, then (only when the project has
      a file) the blob stored under the file's name. */
  function Delete(table: Table, blobs: set<string>, self: LegacyProject): (r: Result<(Table, set<string>, seq<Effect>), DeleteError>)
    ensures self.pk == 0 <==> r.Err?
    ensures r.Ok? ==>
      && var (t, b, effects) := r.value;
      && (forall p :: p in t.rows <==> p in table.rows && p.pk != self.pk)
      && t.lastPk == table.lastPk
      && (HasFile(self) ==> b == blobs - {self.file.name} && effects == [RowDeleted(self.pk), BlobDeleted(self.file.name)])
      && (!HasFile(self) ==> b == blobs && effects == [RowDeleted(self.pk)])
  {
    if self.pk == 0 then Err(NotSaved)
    else
      var t := table.(rows := WithoutPk(table.rows, self.pk));
      if HasFile(self) then Ok((t, blobs - {self.file.name}, [RowDeleted(self.pk), BlobDeleted(self.file.name)]))
      else Ok((t, blobs, [RowDeleted(self.pk)]))
  }

  /** The blob is deleted only after its row, and never when there is no
      file; no other blob is touched. */
  lemma DeleteOrder(table: Table, blobs: set<string>, self: LegacyProject)
    requires self.pk != 0
    ensures var (t, b, effects) := Delete(table, blobs, self).value;
      && effects[0] == RowDeleted(self.pk)
      && (forall i :: 0 <= i < |effects| && effects[i].BlobDeleted? ==> i > 0 && HasFile(self))
      && (forall n :: n in blobs && n != self.file.name ==> n in b)
      && b <= blobs
  {
  }
}

=== FILE: membership_views.dfy ===
/** The membership views: inviting a user into a project and removing a
    member from it. Both are POST-only. */
module MembershipViews {
  import opened Results
  import opened GisModel

  datatype MemberError =
    | MethodNotAllowed        // not a POST (405)
    | ProjectNotFound         // no such project (owned by the requester, for add) (404)
    | UserNotFound            // no user with the submitted username
    | MultipleMemberships     // `get_or_create` found more than one row for the pair
    | PermissionDenied        // the requester may not manage the project
    | OwnerMissing            // the project has no owner: reading its id fails
    | CannotRemoveOwner       // the member to remove is the project owner
    | MemberNotFound          // the user holds no membership in the project

  /** Index of the first membership of `user` in `p`, in row order. */
  function FirstMembership(ms: seq<Membership>, p: ProjectId, user: UserId): (r: Option<nat>)
    ensures r.Some? ==> r.value < |ms| && ms[r.value].project == p && ms[r.value].user == user
    ensures r.Some? ==> forall j :: 0 <= j < r.value ==> !(ms[j].project == p && ms[j].user == user)
    ensures r.None? <==> forall j :: 0 <= j < |ms| ==> !(ms[j].project == p && ms[j].user == user)
  {
    if |ms| == 0 then None
    else if ms[0].project == p && ms[0].user == user then Some(0)
    else
      var r := FirstMembership(ms[1..], p, user);
      if r.Some? then Some(r.value + 1) else None
  }

  /** `add_member`: the project must be the requester's and the username
      known; the pair (project, user) is then looked up and, when absent,
      created as a viewer invited by the requester. The boolean says whether
      a row was created. `users` maps usernames to user ids; a missing
      username field never names a user. */
  function AddMember(db: Db, requester: UserId, p: ProjectId, isPost: bool, username: Option<string>, users: map<string, UserId>): (r: Result<(Db, bool), MemberError>)
    ensures !isPost ==> r == Err(MethodNotAllowed)
    ensures isPost && (p !in db.projects || db.projects[p].owner != Some(requester)) ==> r == Err(ProjectNotFound)
    ensures r == Err(UserNotFound) <==>
      isPost && p in db.projects && db.projects[p].owner == Some(requester)
      && (username.None? || username.value !in users)
    ensures r == Err(MultipleMemberships) <==>
      isPost && p in db.projects && db.projects[p].owner == Some(requester)
      && username.Some? && username.value in users && MemberCount(db.members, p, users[username.value]) >= 2
    ensures r.Ok? <==>
      && isPost && p in db.projects && db.projects[p].owner == Some(requester)
      && username.Some? && username.value in users && MemberCount(db.members, p, users[username.value]) <= 1
    ensures r.Ok? ==>
      && username.Some? && username.value in users
      && var u := users[username.value];
      && var (db', created) := r.value;
      && db' == db.(members := db'.members)
      && (created <==> MemberCount(db.members, p, u) == 0)
      && (created ==> db'.members == db.members + [Membership(p, u, Viewer, requester)])
      && (!created ==> db'.members == db.members)
      && MemberCount(db'.members, p, u) == 1
  {
    if !isPost then Err(MethodNotAllowed)
    else if p !in db.projects || db.projects[p].owner != Some(requester) then Err(ProjectNotFound)
    else if username.None? || username.value !in users then Err(UserNotFound)
    else
      var u := users[username.value];
      var n := MemberCount(db.members, p, u);
      if n >= 2 then Err(MultipleMemberships)
      else if n == 1 then Ok((db, false))
      else
        MemberCountAppend(db.members, Membership(p, u, Viewer, requester), p, u);
        Ok((db.(members := db.members + [Membership(p, u, Viewer, requester)]), true))
  }

  /** Adding a member twice is adding once: the second call finds the row
      the first one made and changes nothing. */
  lemma AddMemberIdempotent(db: Db, requester: UserId, p: ProjectId, username: Option<string>, users: map<string, UserId>)
    requires AddMember(db, requester, p, true, username, users).Ok?
    ensures var db' := AddMember(db, requester, p, true, username, users).value.0;
      AddMember(db', requester, p, true, username, users) == Ok((db', false))
  {
  }

  /** An existing membership, role included, is left as it is. */
  lemma AddExistingMemberKeepsRole(db: Db, requester: UserId, p: ProjectId, username: Option<string>, users: map<string, UserId>, k: nat)
    requires MembershipUnique(db.members)
    requires p in db.projects && db.projects[p].owner == Some(requester)
    requires username.Some? && username.value in users
    requires k < |db.members| && db.members[k].project == p && db.members[k].user == users[username.value]
    ensures AddMember(db, requester, p, true, username, users) == Ok((db, false))
  {
    UniqueCountAtMostOne(db.members, p, users[username.value]);
    CountPositive(db.members, k);
  }

  /** With unique memberships, `add_member` never meets two rows for a pair
      and keeps memberships unique. */
  lemma AddMemberKeepsUnique(db: Db, requester: UserId, p: ProjectId, username: Option<string>, users: map<string, UserId>)
    requires MembershipUnique(db.members)
    ensures AddMember(db, requester, p, true, username, users) != Err(MultipleMemberships)
    ensures var r := AddMember(db, requester, p, true, username, users);
      r.Ok? ==> MembershipUnique(r.value.0.members)
  {
    var r := AddMember(db, requester, p, true, username, users);
    if username.Some? && username.value in users {
      var u := users[username.value];
      UniqueCountAtMostOne(db.members, p, u);
      if r.Ok? && r.value.1 {
        var ms := db.members;
        var ms' := r.value.0.members;
        forall i, j | 0 <= i < |ms'| && 0 <= j < |ms'| && ms'[i].project == ms'[j].project && ms'[i].user == ms'[j].user
          ensures i == j
        {
          if i < |ms| && j < |ms| {
            assert ms'[i] == ms[i] && ms'[j] == ms[j];
          } else if i < |ms| {
            assert ms[i].project == p && ms[i].user == u;
            CountPositive(ms, i);
          } else if j < |ms| {
            assert ms[j].project == p && ms[j].user == u;
            CountPositive(ms, j);
          }
        }
      }
    }
  }

  /** Under unique memberships a pair has at most one row. */
  lemma {:induction false} UniqueCountAtMostOne(ms: seq<Membership>, p: ProjectId, user: UserId)
    requires MembershipUnique(ms)
    ensures MemberCount(ms, p, user) <= 1
  {
    if |ms| > 0 {
      var init := ms[..|ms| - 1];
      var last := ms[|ms| - 1];
      assert MembershipUnique(init) by {
        forall i, j | 0 <= i < |init| && 0 <= j < |init| && init[i].project == init[j].project && init[i].user == init[j].user
          ensures i == j
        {
          assert init[i] == ms[i] && init[j] == ms[j];
        }
      }
      UniqueCountAtMostOne(init, p, user);
      if last.project == p && last.user == user {
        forall j | 0 <= j < |init| ensures !(init[j].project == p && init[j].user == user) {
          assert init[j] == ms[j];
        }
        MemberCountZeroForPair(init, p, user);
      }
    }
  }

  /** A pair with no row has count zero. */
  lemma {:induction false} MemberCountZeroForPair(ms: seq<Membership>, p: ProjectId, user: UserId)
    requires forall j :: 0 <= j < |ms| ==> !(ms[j].project == p && ms[j].user == user)
    ensures MemberCount(ms, p, user) == 0
  {
    if |ms| > 0 {
      MemberCountZeroForPair(ms[..|ms| - 1], p, user);
    }
  }

  /** A pair with a row has a positive count. */
  lemma {:induction false} CountPositive(ms: seq<Membership>, k: nat)
    requires k < |ms|
    ensures MemberCount(ms, ms[k].project, ms[k].user) >= 1
  {
    if k < |ms| - 1 {
      CountPositive(ms[..|ms| - 1], k);
    }
  }

  /** `remove_member`: the project must exist and the requester manage it
      (`canManage` is the project's own rule); the owner's id is read (which
      fails for a project without owner), the owner cannot be removed, and
      otherwise the first membership of the user in the project is deleted,
      or an error reported when there is none. */
  function RemoveMember(db: Db, requester: UserId, p: ProjectId, user: UserId, isPost: bool, canManage: (ProjectId, UserId) -> bool): (r: Result<Db, MemberError>)
    ensures !isPost ==> r == Err(MethodNotAllowed)
    ensures isPost && p !in db.projects ==> r == Err(ProjectNotFound)
    ensures isPost && p in db.projects && !canManage(p, requester) ==> r == Err(PermissionDenied)
    ensures r == Err(OwnerMissing) <==>
      isPost && p in db.projects && canManage(p, requester) && db.projects[p].owner.None?
    ensures r == Err(CannotRemoveOwner) <==>
      isPost && p in db.projects && canManage(p, requester) && db.projects[p].owner == Some(user)
    ensures r.Ok? <==>
      && isPost && p in db.projects && canManage(p, requester)
      && db.projects[p].owner.Some? && db.projects[p].owner.value != user
      && exists k :: 0 <= k < |db.members| && db.members[k].project == p && db.members[k].user == user
    ensures r.Ok? ==> p in db.projects && db.projects[p].owner.Some? && db.projects[p].owner.value != user
    ensures r == Err(MemberNotFound) <==>
      && isPost && p in db.projects && canManage(p, requester)
      && db.projects[p].owner.Some? && db.projects[p].owner.value != user
      && forall j :: 0 <= j < |db.members| ==> !(db.members[j].project == p && db.members[j].user == user)
    ensures r.Ok? ==>
      && r.value == db.(members := r.value.members)
      && exists k :: 0 <= k < |db.members| && db.members[k].project == p && db.members[k].user == user
           && (forall j :: 0 <= j < k ==> !(db.members[j].project == p && db.members[j].user == user))
           && r.value.members == db.members[..k] + db.members[k + 1..]
  {
    if !isPost then Err(MethodNotAllowed)
    else if p !in db.projects then Err(ProjectNotFound)
    else if !canManage(p, requester) then Err(PermissionDenied)
    else
      var owner := db.projects[p].owner;
      if owner.None? then Err(OwnerMissing)
      else if owner.value == user then Err(CannotRemoveOwner)
      else
        match FirstMembership(db.members, p, user)
        case None => Err(MemberNotFound)
        case Some(k) => Ok(db.(members := db.members[..k] + db.members[k + 1..]))
  }

  /** `remove_member` never touches the owner's memberships, nor any
      membership of another pair: exactly one row of the removed pair goes. */
  lemma RemoveMemberFrame(db: Db, requester: UserId, p: ProjectId, user: UserId, canManage: (ProjectId, UserId) -> bool, q: ProjectId, v: UserId)
    requires RemoveMember(db, requester, p, user, true, canManage).Ok?
    ensures var ms' := RemoveMember(db, requester, p, user, true, canManage).value.members;
      && |ms'| == |db.members| - 1
      && MemberCount(ms', q, v) == MemberCount(db.members, q, v) - (if q == p && v == user then 1 else 0)
      && MemberCount(ms', p, db.projects[p].owner.value) == MemberCount(db.members, p, db.projects[p].owner.value)
  {
    var k := FirstMembership(db.members, p, user).value;
    RemoveCount(db.members, k, q, v);
    RemoveCount(db.members, k, p, db.projects[p].owner.value);
  }

  /** Under unique memberships the removed user holds no membership in the
      project afterwards. */
  lemma RemoveMemberRemovesPair(db: Db, requester: UserId, p: ProjectId, user: UserId, canManage: (ProjectId, UserId) -> bool)
    requires MembershipUnique(db.members)
    requires RemoveMember(db, requester, p, user, true, canManage).Ok?
    ensures MemberCount(RemoveMember(db, requester, p, user, true, canManage).value.members, p, user) == 0
  {
    UniqueCountAtMostOne(db.members, p, user);
    RemoveMemberFrame(db, requester, p, user, canManage, p, user);
  }

  /** Taking row `k` out lowers the count of its own pair by one and leaves
      every other pair's count alone. */
  lemma {:induction false} RemoveCount(ms: seq<Membership>, k: nat, q: ProjectId, v: UserId)
    requires k < |ms|
    ensures MemberCount(ms[..k] + ms[k + 1..], q, v)
      == MemberCount(ms, q, v) - (if ms[k].project == q && ms[k].user == v then 1 else 0)
  {
    var last := ms[|ms| - 1];
    var init := ms[..|ms| - 1];
    if k == |ms| - 1 {
      assert ms[..k] + ms[k + 1..] == init;
    } else {
      RemoveCount(init, k, q, v);
      assert ms[..k] + ms[k + 1..] == (init[..k] + init[k + 1..]) + [last];
      MemberCountAppend(init[..k] + init[k + 1..], last, q, v);
      assert init[k] == ms[k];
    }
  }
}

=== FILE: project_forms.dfy ===
/** `ProjectForm`, the upload form: an uploaded file plus either an existing
    project of the owner or the name of a new one. */
module ProjectForms {
  import opened Results
  import opened Text
  import opened GisModel
  import Signals

  /** Longest project name the `new_project_name` field accepts. */
  const MaxProjectNameLength := 255

  /** The submitted form: the chosen project (if any), the new-project
      name as typed, and the uploaded file (if any). */
  datatype FormData = FormData(project: Option<ProjectId>, newProjectName: string, file: Option<Upload>)

  datatype FormError =
    | FileMissing           // `uploaded_file` is a required field
    | FileUnnamed           // the upload has no file name ("No file was submitted")
    | FileEmpty             // the upload has no bytes (empty files are not allowed)
    | ProjectNotSelectable  // the chosen project is not among the selectable ones
    | NameTooLong           // `new_project_name` is longer than 255 characters
    | NameHasNullCharacter  // `new_project_name` holds a null character
    | BothProjectChoices    // an existing project and a new name at once

  /** The projects the `project` field offers to `owner`: the owner's
      projects that are not deleted (`owner` may be unset, as the form's
      constructor allows). */
  function Selectable(projects: map<ProjectId, Project>, owner: Option<UserId>): (r: set<ProjectId>)
    ensures r <= projects.Keys
    ensures forall pid :: pid in r <==> pid in projects && projects[pid].owner == owner && !projects[pid].isDeleted
  {
    set pid | pid in projects && projects[pid].owner == owner && !projects[pid].isDeleted
  }

  /** `ProjectForm.clean`: choosing an existing project and naming a new one
      are mutually exclusive; any other combination passes unchanged. */
  function Clean(form: FormData): (r: Result<FormData, FormError>)
    ensures r.Err? <==> form.project.Some? && form.newProjectName != ""
    ensures r.Err? ==> r.error == BothProjectChoices
    ensures r.Ok? ==> r.value == form
  {
    if form.project.Some? && form.newProjectName != "" then Err(BothProjectChoices)
    else Ok(form)
  }

  /** `form.is_valid()`: field cleaning (the file is required and, as a
      file field does by default, must have a name and at least one byte;
      the chosen project must be selectable; the new name is stripped of
      surrounding whitespace, may not exceed 255 characters and may not hold
      a null character), then `clean`. */
  function Validate(projects: map<ProjectId, Project>, owner: Option<UserId>, form: FormData): (r: Result<FormData, FormError>)
    ensures r.Ok? <==>
      && form.file.Some? && form.file.value.name != "" && form.file.value.size > 0
      && (form.project.Some? ==> form.project.value in Selectable(projects, owner))
      && |Strip(form.newProjectName)| <= MaxProjectNameLength
      && NullChar !in Strip(form.newProjectName)
      && !(form.project.Some? && Strip(form.newProjectName) != "")
    ensures r.Ok? ==> r.value == form.(newProjectName := Strip(form.newProjectName))
    ensures r == Err(FileMissing) <==> form.file.None?
    ensures r == Err(FileUnnamed) <==> form.file.Some? && form.file.value.name == ""
    ensures r == Err(FileEmpty) <==> form.file.Some? && form.file.value.name != "" && form.file.value.size == 0
  {
    if form.file.None? then Err(FileMissing)
    else if form.file.value.name == "" then Err(FileUnnamed)
    else if form.file.value.size == 0 then Err(FileEmpty)
    else if form.project.Some? && form.project.value !in Selectable(projects, owner) then Err(ProjectNotSelectable)
    else
      var name := Strip(form.newProjectName);
      if |name| > MaxProjectNameLength then Err(NameTooLong)
      else if NullChar in name then Err(NameHasNullCharacter)
      else Clean(form.(newProjectName := name))
  }

  /** A project created for an owner is offered to that owner from then on,
      next to the ones offered before; what other owners are offered does
      not change. */
  lemma CreatedProjectSelectable(db: Db, name: string, owner: Option<UserId>)
    requires WellFormed(db)
    ensures var (db', pid) := Signals.CreateProjectRecord(db, name, owner);
      && Selectable(db'.projects, owner) == Selectable(db.projects, owner) + {pid}
      && forall o :: o != owner ==> Selectable(db'.projects, o) == Selectable(db.projects, o)
  {
    var (db', pid) := Signals.CreateProjectRecord(db, name, owner);
    assert pid in Selectable(db'.projects, owner);
  }

  /** A valid form names exactly one target: a chosen project is used as it
      is, with an empty new name; without one, a new project is created
      under the stripped name. The file is never attached to both. */
  lemma ValidFormResolvesOneWay(db: Db, owner: Option<UserId>, form: FormData)
    requires WellFormed(db)
    requires Validate(db.projects, owner, form).Ok?
    ensures IsCleaned(db, owner, Validate(db.projects, owner, form).value)
    ensures var (db', pid) := ResolveProject(db, owner, Validate(db.projects, owner, form).value);
      && (form.project.Some? <==> pid in db.projects)
      && (form.project.Some? ==> pid == form.project.value && db' == db && Strip(form.newProjectName) == "")
      && (form.project.None? ==> db'.projects[pid] == Project(owner, Strip(form.newProjectName), false))
  {
  }

  /** `db'` is `db` with project `pid` newly created by `Project.objects.create`
      under `name` and `owner`, not deleted, together with the admin
      membership its post-save signal adds. */
  predicate NewProjectFor(db: Db, db': Db, pid: ProjectId, owner: Option<UserId>, name: string)
  {
    && pid !in db.projects
    && db'.projects == db.projects[pid := Project(owner, name, false)]
    && db'.members == Signals.AddOwnerAsAdmin(db.members, pid, Project(owner, name, false), true)
    && db'.nextProject == pid + 1
  }

  /** The cleaned data of a valid form, as `save` reads it. */
  predicate IsCleaned(db: Db, owner: Option<UserId>, form: FormData)
  {
    && form.file.Some?
    && (form.project.Some? ==> form.project.value in Selectable(db.projects, owner))
  }

  /** The project `save` attaches the file to: the chosen one, or (when none
      is chosen) a new project named `new_project_name` owned by the form's
      owner, created through `Project.objects.create` and its signal. */
  function ResolveProject(db: Db, owner: Option<UserId>, form: FormData): (r: (Db, ProjectId))
    requires WellFormed(db) && IsCleaned(db, owner, form)
    ensures r.1 in r.0.projects && r.0.projects[r.1].owner == owner
    ensures form.project.Some? ==> r == (db, form.project.value)
    ensures form.project.None? ==>
      && r.1 !in db.projects
      && r.0.projects == db.projects[r.1 := Project(owner, form.newProjectName, false)]
      && r.0.members == Signals.AddOwnerAsAdmin(db.members, r.1, Project(owner, form.newProjectName, false), true)
      && r.0.nextProject == r.1 + 1
    ensures r.0.files == db.files && r.0.activity == db.activity && r.0.nextFile == db.nextFile
    ensures WellFormed(r.0)
  {
    if form.project.Some? then (db, form.project.value)
    else Signals.CreateProjectRecord(db, form.newProjectName, owner)
  }

  /** `ProjectForm.save`: attach the uploaded file to the resolved project as
      a version-1 latest row, without looking at existing rows of the same
      name or digest, and without an activity entry. The row's folder is the
      empty string, a choice of this model: the File model's default is
      not part of it. */
  function Save(db: Db, owner: Option<UserId>, form: FormData): (r: (Db, FileVersion))
    requires WellFormed(db) && IsCleaned(db, owner, form)
    ensures var (db', row) := r;
      && |db'.files| == |db.files| + 1
      && db'.files == db.files + [row]
      && row.version == 1 && row.isLatest
      && row.name == form.file.value.name && row.hash == form.file.value.hash
      && row.owner == owner && row.project in db'.projects
      && row.id == db.nextFile && db'.nextFile == db.nextFile + 1
      && (form.project.Some? ==>
            row.project == form.project.value && db'.projects == db.projects
            && db'.members == db.members && db'.nextProject == db.nextProject)
      && (form.project.None? ==> NewProjectFor(db, db', row.project, owner, form.newProjectName))
      && db'.activity == db.activity
      && WellFormed(db')
  {
    var (db1, pid) := ResolveProject(db, owner, form);
    var up := form.file.value;
    var row := FileVersion(db1.nextFile, pid, owner, up.name, "", up.hash, 1, true, up.key);
    (db1.(files := db1.files + [row], nextFile := db1.nextFile + 1), row)
  }

  /** Saving into a project that already has a latest row of the same name
      leaves that logical file with two latest rows: `save` never clears the
      old flag. */
  lemma SaveBreaksLatestUnique(db: Db, owner: Option<UserId>, form: FormData, j: nat)
    requires WellFormed(db) && IsCleaned(db, owner, form) && form.project.Some?
    requires j < |db.files| && db.files[j].isLatest
    requires InGroup(db.files[j], form.project.value, form.file.value.name)
    ensures !LatestUnique(Save(db, owner, form).0.files)
  {
    var fs := Save(db, owner, form).0.files;
    assert fs[j] == db.files[j];
    assert fs[|db.files|].isLatest && InGroup(fs[|db.files|], fs[j].project, fs[j].name);
  }

  /** Saving content that the chosen project already stores gives that
      project two rows with one digest: `save` never looks for duplicates. */
  lemma SaveBreaksHashUnique(db: Db, owner: Option<UserId>, form: FormData, j: nat)
    requires WellFormed(db) && IsCleaned(db, owner, form) && form.project.Some?
    requires j < |db.files| && db.files[j].project == form.project.value
    requires db.files[j].hash == form.file.value.hash
    ensures !HashUnique(Save(db, owner, form).0.files)
  {
    var fs := Save(db, owner, form).0.files;
    assert fs[j] == db.files[j];
    assert fs[|db.files|].project == fs[j].project && fs[|db.files|].hash == fs[j].hash;
  }
}

=== FILE: project_views.dfy ===
/** The project views: creating a project (with its owner's admin
    membership), downloading the latest files of a project as an archive,
    and hard and soft deletion. */
module ProjectViews {
  import opened Results
  import opened Text
  import opened GisModel
  import Signals
  import ProjectForms

  datatype ProjectError =
    | NotFound      // no such project owned by the requester (404)
    | NoFiles       // the project has no latest file to archive (404)
    | NotSubmitted  // the form was not valid / the request not a POST
    | MultipleRows  // `get_or_create` found more than one matching row

  // ---------------------------------------------------------------------
  // create_project

  /** `get_or_create` with every field of the row as lookup: more than one
      equal row makes the lookup fail, one equal row is kept, and with none
      `m` is appended. Afterwards exactly one row equals `m` and every
      earlier row is still there, in place. */
  function GetOrCreate(ms: seq<Membership>, m: Membership): (r: Result<seq<Membership>, ProjectError>)
    ensures r.Err? <==> multiset(ms)[m] >= 2
    ensures r.Err? ==> r.error == MultipleRows
    ensures r.Ok? ==>
      && multiset(r.value)[m] == 1
      && |r.value| == |ms| + (if m in ms then 0 else 1)
      && r.value[..|ms|] == ms
  {
    if multiset(ms)[m] >= 2 then Err(MultipleRows)
    else if m in ms then Ok(ms)
    else Ok(ms + [m])
  }

  /** Looking up the row a successful `get_or_create` left behind finds it
      and changes nothing. */
  lemma GetOrCreateIdempotent(ms: seq<Membership>, m: Membership)
    requires GetOrCreate(ms, m).Ok?
    ensures GetOrCreate(GetOrCreate(ms, m).value, m) == GetOrCreate(ms, m)
  {
    var r := GetOrCreate(ms, m).value;
    assert m in multiset(r);
  }

  /** `create_project`: a valid form creates the project owned by the
      requester (whose post-save signal adds the admin membership), then
      looks up or creates that very membership. `formValid` stands for
      `CreateProjectForm(request.POST or None).is_valid()`, `name` for the
      name it cleans. */
  function CreateProject(db: Db, user: UserId, formValid: bool, name: string): (r: Result<(Db, ProjectId), ProjectError>)
    requires WellFormed(db)
    ensures !formValid <==> r.Err?
    ensures r.Err? ==> r.error == NotSubmitted
    ensures r.Ok? ==>
      && var (db', pid) := r.value;
      && pid !in db.projects
      && db'.projects == db.projects[pid := Project(Some(user), name, false)]
      && db'.files == db.files && db'.activity == db.activity
      && |db'.members| >= |db.members| && db'.members[..|db.members|] == db.members
      && WellFormed(db')
  {
    if !formValid then Err(NotSubmitted)
    else
      var (db1, pid) := Signals.CreateProjectRecord(db, name, Some(user));
      var m := Membership(pid, user, Admin, user);
      assert m !in db.members;
      assert db1.members == db.members + [m];
      match GetOrCreate(db1.members, m)
      case Err(e) => Err(e)
      case Ok(ms) => Ok((db1.(members := ms), pid))
  }

  /** After `create_project` the owner holds exactly one membership in the
      new project, an admin one invited by the owner: the lookup finds the
      row the signal made and adds nothing. */
  lemma CreateProjectOneAdmin(db: Db, user: UserId, name: string)
    requires WellFormed(db)
    ensures CreateProject(db, user, true, name).Ok?
    ensures var (db', pid) := CreateProject(db, user, true, name).value;
      && MemberCount(db'.members, pid, user) == 1
      && |db'.members| == |db.members| + 1
      && db'.members[|db.members|] == Membership(pid, user, Admin, user)
  {
    var (db1, pid) := Signals.CreateProjectRecord(db, name, Some(user));
    Signals.CreatedProjectHasOneAdmin(db, name, user);
    assert db1.members[|db.members|] == Membership(pid, user, Admin, user);
  }

  // ---------------------------------------------------------------------
  // download_project

  /** One archive member: the entry name and the storage key it is read from. */
  datatype Entry = Entry(name: string, key: string)

  /** The archive sent back, under `fileName`. */
  datatype Archive = Archive(fileName: string, entries: seq<Entry>)

  /** The stem with everything from its last "_v" on dropped; a stem
      without "_v" is kept whole. */
  function DropVersionTag(stem: string): (r: string)
    ensures |r| <= |stem| && r == stem[..|r|]
    ensures !Contains(stem, "_v") ==> r == stem
    ensures Contains(stem, "_v") ==> IsAt(stem, "_v", |r|) && !Contains(stem[|r| + 1..], "_v")
  {
    if Contains(stem, "_v") then RSplitHead(stem, "_v") else stem
  }

  /** The name a stored file gets inside the archive: the stored basename
      with its stem cut before the last "_v", and the extension put back.
      It is a single path component. */
  function EntryName(key: string): (r: string)
    ensures var parts := SplitExt(Basename(key)); StemPrefixWithExt(r, parts.0, parts.1)
    ensures var parts := SplitExt(Basename(key)); r == DropVersionTag(parts.0) + parts.1
    ensures '/' !in r
  {
    var parts := SplitExt(Basename(key));
    assert '/' !in parts.0 + parts.1;
    JoinUntagged(parts.0, parts.1)
  }

  /** `r` is a prefix of `stem` followed by `ext`. */
  predicate StemPrefixWithExt(r: string, stem: string, ext: string)
  {
    |ext| <= |r| <= |stem| + |ext| && r == stem[..|r| - |ext|] + ext
  }

  /** The shortened stem followed by the extension. */
  function JoinUntagged(stem: string, ext: string): (r: string)
    ensures StemPrefixWithExt(r, stem, ext)
    ensures r == DropVersionTag(stem) + ext
    ensures '/' !in stem + ext ==> '/' !in r
  {
    var head := DropVersionTag(stem);
    var r := head + ext;
    assert |r| - |ext| == |head|;
    PrefixJoinHasNoSlash(stem, ext, r);
    r
  }

  /** A shortened stem with its extension has no '/' when the whole name has none. */
  lemma PrefixJoinHasNoSlash(stem: string, ext: string, r: string)
    requires StemPrefixWithExt(r, stem, ext)
    ensures '/' !in stem + ext ==> '/' !in r
  {
    var n := |r| - |ext|;
    forall i | 0 <= i < |r| && '/' !in stem + ext ensures r[i] != '/' {
      if i < n {
        assert r[i] == stem[i] == (stem + ext)[i];
      } else {
        assert r[i] == ext[i - n] == (stem + ext)[|stem| + i - n];
      }
    }
  }

  /** The latest rows of project `p`, in row order. */
  function LatestRows(fs: seq<FileVersion>, p: ProjectId): (r: seq<FileVersion>)
    ensures forall f :: f in r <==> f in fs && f.project == p && f.isLatest
  {
    if |fs| == 0 then []
    else
      var f := fs[|fs| - 1];
      LatestRows(fs[..|fs| - 1], p) + (if f.project == p && f.isLatest then [f] else [])
  }

  /** The entry a row with a stored file contributes. */
  function EntryFor(f: FileVersion): Entry
  {
    Entry(EntryName(f.key), f.key)
  }

  /** The archive entries for a sequence of rows: one per row with a stored
      file, in the same order. */
  function EntriesOf(rows: seq<FileVersion>): (r: seq<Entry>)
    ensures |r| <= |rows|
    ensures forall f :: f in rows && f.key != "" ==> EntryFor(f) in r
  {
    if |rows| == 0 then []
    else (if rows[0].key != "" then [EntryFor(rows[0])] else []) + EntriesOf(rows[1..])
  }

  /** Every entry comes from a row with a stored file. */
  lemma {:induction false} EntriesOfSound(rows: seq<FileVersion>)
    ensures forall e :: e in EntriesOf(rows) ==> exists f :: f in rows && f.key != "" && e == EntryFor(f)
  {
    if |rows| > 0 {
      EntriesOfSound(rows[1..]);
      forall e | e in EntriesOf(rows) ensures exists f :: f in rows && f.key != "" && e == EntryFor(f) {
        if e in EntriesOf(rows[1..]) {
          var f :| f in rows[1..] && f.key != "" && e == EntryFor(f);
          assert f in rows;
        } else {
          assert rows[0] in rows;
        }
      }
    }
  }

  /** `download_project`: the project must be the requester's; its latest
      rows, none when the project is soft-deleted, must not be empty; each
      one with a stored file becomes an entry. The archive is named after
      the project. */
  function DownloadProject(db: Db, user: UserId, p: ProjectId): (r: Result<Archive, ProjectError>)
    ensures (p !in db.projects || db.projects[p].owner != Some(user)) <==> r == Err(NotFound)
    ensures r == Err(NoFiles) <==>
      p in db.projects && db.projects[p].owner == Some(user)
      && (db.projects[p].isDeleted || forall f :: f in db.files && f.project == p ==> !f.isLatest)
    ensures r.Err? ==> r == Err(NotFound) || r == Err(NoFiles)
    ensures r.Ok? ==>
      && r.value.fileName == db.projects[p].name + ".zip"
      && (forall f :: f in db.files && f.project == p && f.isLatest && f.key != "" ==> EntryFor(f) in r.value.entries)
      && (forall e :: e in r.value.entries ==>
            exists f :: f in db.files && f.project == p && f.isLatest && f.key != "" && e == EntryFor(f))
  {
    if p !in db.projects || db.projects[p].owner != Some(user) then Err(NotFound)
    else
      var rows := if db.projects[p].isDeleted then [] else LatestRows(db.files, p);
      EntriesOfSound(rows);
      if |rows| == 0 then
        assert forall f :: f in db.files && f.project == p && !db.projects[p].isDeleted ==> !f.isLatest by {
          forall f | f in db.files && f.project == p && !db.projects[p].isDeleted ensures !f.isLatest {
          }
        }
        Err(NoFiles)
      else
        Ok(Archive(db.projects[p].name + ".zip", EntriesOf(rows)))
  }

  /** A stored name whose stem has no "_v" enters the archive under its
      basename unchanged. */
  lemma EntryNameWithoutTag(key: string)
    requires !Contains(SplitExt(Basename(key)).0, "_v")
    ensures EntryName(key) == Basename(key)
  {
  }

  /** A stored name `dir/stem_vN.ext` enters the archive as `stem.ext`:
      the version tag is dropped and the extension kept. */
  lemma EntryNameDropsVersionTag(dir: string, stem: string, n: nat, ext: string)
    requires '/' !in stem && IsExtension(ext)
    ensures EntryName(dir + "/" + stem + "_v" + NatToString(n) + ext) == stem + ext
  {
    var digits := NatToString(n);
    var tagged := stem + "_v" + digits;
    assert dir + "/" + stem + "_v" + digits + ext == dir + "/" + (tagged + ext);
    TaggedNameShape(stem, digits, ext);
    BasenameOfJoin(dir, tagged + ext);
    SplitExtOfJoin(tagged, ext);
    LastVersionTag(stem, digits);
    assert DropVersionTag(tagged) == stem;
  }

  /** Whatever follows the last "_v" is dropped, digits or not: a stored
      name `dir/head_v<tail>.ext` whose tail holds no "_v" enters the archive
      as `head.ext`. */
  lemma EntryNameCutsAtLastTag(dir: string, head: string, tail: string, ext: string)
    requires '/' !in head && '/' !in tail && IsExtension(ext) && !Contains(tail, "_v")
    ensures EntryName(dir + "/" + head + "_v" + tail + ext) == head + ext
  {
    var tagged := head + "_v" + tail;
    assert dir + "/" + head + "_v" + tail + ext == dir + "/" + (tagged + ext);
    TailTaggedShape(head, tail, ext);
    BasenameOfJoin(dir, tagged + ext);
    SplitExtOfJoin(tagged, ext);
    LastTagBeforeTail(head, tail);
    assert DropVersionTag(tagged) == head;
  }

  /** `uploads/my_video.shp` is archived as `my.shp`: the "_v" of "video"
      is taken for a version tag. */
  lemma EntryNameCutsInsideWord()
    ensures EntryName("uploads/my_video.shp") == "my.shp"
  {
    assert !Contains("ideo", "_v") by {
      forall i | 0 <= i <= 4 && IsAt("ideo", "_v", i) ensures "ideo"[i] == '_' {
        assert "ideo"[i..i + 2][0] == "ideo"[i];
      }
    }
    assert "uploads" + "/" + "my" + "_v" + "ideo" + ".shp" == "uploads/my_video.shp";
    assert "my" + ".shp" == "my.shp";
    EntryNameCutsAtLastTag("uploads", "my", "ideo", ".shp");
  }

  /** `head_v<tail>` with its extension is one path component, and is not
      made of dots only. */
  lemma TailTaggedShape(head: string, tail: string, ext: string)
    requires '/' !in head && '/' !in tail && IsExtension(ext)
    ensures '/' !in head + "_v" + tail + ext
    ensures IsPlainStem(head + "_v" + tail)
  {
    var tagged := head + "_v" + tail;
    assert tagged[|head|] == '_';
    var whole := head + "_v" + tail + ext;
    forall i | 0 <= i < |whole| ensures whole[i] != '/' {
      if i < |head| { assert whole[i] == head[i]; }
      else if i < |head| + 2 { }
      else if i < |tagged| { assert whole[i] == tail[i - |head| - 2]; }
      else { assert whole[i] == ext[i - |tagged|]; }
    }
    forall i | 0 <= i < |tagged| ensures tagged[i] != '/' {
      assert tagged[i] == whole[i];
    }
  }

  /** In `head + "_v" + tail`, with no "_v" in the tail, the last "_v" is
      the one after the head. */
  lemma LastTagBeforeTail(head: string, tail: string)
    requires !Contains(tail, "_v")
    ensures var s := head + "_v" + tail;
      Contains(s, "_v") && RSplitHead(s, "_v") == head
  {
    var s := head + "_v" + tail;
    assert IsAt(s, "_v", |head|) by {
      assert s[|head|..|head| + 2] == "_v";
    }
    var r := RSplitHead(s, "_v");
    assert IsAt(s, "_v", |r|);
    if |r| > |head| {
      var k := |r|;
      assert s[k..k + 2][0] == s[k];
      if k > |head| + 1 {
        assert s[k..k + 2] == tail[k - |head| - 2..k - |head|];
        assert IsAt(tail, "_v", k - |head| - 2);
      }
    }
    assert r == s[..|head|] == head;
  }

  /** A tagged stem with an extension is one path component, and the tagged
      stem is not made of dots only. */
  lemma TaggedNameShape(stem: string, digits: string, ext: string)
    requires '/' !in stem && IsExtension(ext) && AllDigits(digits)
    ensures '/' !in stem + "_v" + digits + ext
    ensures IsPlainStem(stem + "_v" + digits)
  {
    var tagged := stem + "_v" + digits;
    assert '/' !in tagged by {
      forall i | 0 <= i < |tagged| ensures tagged[i] != '/' {
        if i < |stem| { assert tagged[i] == stem[i]; }
        else if i >= |stem| + 2 { assert tagged[i] == digits[i - |stem| - 2] && IsDigit(digits[i - |stem| - 2]); }
      }
    }
    assert tagged[|stem|] == '_';
    assert stem + "_v" + digits + ext == tagged + ext;
    forall i | 0 <= i < |tagged + ext| ensures (tagged + ext)[i] != '/' {
      if i < |tagged| { assert (tagged + ext)[i] == tagged[i]; }
      else { assert (tagged + ext)[i] == ext[i - |tagged|]; }
    }
  }

  /** In `stem + "_v" + digits` the last "_v" is the one before the digits. */
  lemma LastVersionTag(stem: string, digits: string)
    requires AllDigits(digits)
    ensures var s := stem + "_v" + digits;
      Contains(s, "_v") && RSplitHead(s, "_v") == stem
  {
    var s := stem + "_v" + digits;
    assert IsAt(s, "_v", |stem|) by {
      assert s[|stem|..|stem| + 2] == "_v";
    }
    var r := RSplitHead(s, "_v");
    assert IsAt(s, "_v", |r|);
    if |r| > |stem| {
      TagNotAfter(stem, digits, |r|);
    }
    assert r == s[..|stem|] == stem;
  }

  /** No "_v" starts inside the tag's 'v' or the digits. */
  lemma TagNotAfter(stem: string, digits: string, k: nat)
    requires AllDigits(digits) && |stem| < k
    ensures !IsAt(stem + "_v" + digits, "_v", k)
  {
    var s := stem + "_v" + digits;
    if k + 2 <= |s| {
      assert s[k..k + 2][0] == s[k];
      if k == |stem| + 1 {
        assert s[k] == 'v';
      } else {
        assert s[k] == digits[k - |stem| - 2] && IsDigit(digits[k - |stem| - 2]);
      }
    }
  }

  // ---------------------------------------------------------------------
  // delete_project and delete_project_soft

  /** `r` holds each row of `fs` outside project `p` exactly as often as
      `fs` does, and no row of `p`. */
  ghost predicate FilesKept(r: seq<FileVersion>, fs: seq<FileVersion>, p: ProjectId)
  {
    forall f :: multiset(r)[f] == if f.project != p then multiset(fs)[f] else 0
  }

  /** The same for membership rows. */
  ghost predicate MembersKept(r: seq<Membership>, ms: seq<Membership>, p: ProjectId)
  {
    forall m :: multiset(r)[m] == if m.project != p then multiset(ms)[m] else 0
  }

  /** The rows not belonging to project `p`, in order. */
  function FilesOutside(fs: seq<FileVersion>, p: ProjectId): (r: seq<FileVersion>)
    ensures |r| <= |fs|
    ensures forall f :: f in r <==> f in fs && f.project != p
  {
    if |fs| == 0 then []
    else FilesOutside(fs[..|fs| - 1], p) + (if fs[|fs| - 1].project != p then [fs[|fs| - 1]] else [])
  }

  /** The memberships not in project `p`, in order. */
  function MembersOutside(ms: seq<Membership>, p: ProjectId): (r: seq<Membership>)
    ensures forall m :: m in r <==> m in ms && m.project != p
  {
    if |ms| == 0 then []
    else MembersOutside(ms[..|ms| - 1], p) + (if ms[|ms| - 1].project != p then [ms[|ms| - 1]] else [])
  }

  /** Counting the elements of a non-empty sequence is counting those before
      its last element and then the last one. */
  lemma CountSplitLast<T>(s: seq<T>)
    requires |s| > 0
    ensures multiset(s) == multiset(s[..|s| - 1]) + multiset([s[|s| - 1]])
  {
    assert s == s[..|s| - 1] + [s[|s| - 1]];
  }

  /** The cascade drops the rows of `p` and keeps every other row exactly as
      often as it was there: duplicates are neither merged nor multiplied. */
  lemma FilesOutsideCounts(fs: seq<FileVersion>, p: ProjectId)
    ensures FilesKept(FilesOutside(fs, p), fs, p)
  {
    forall f ensures multiset(FilesOutside(fs, p))[f] == if f.project != p then multiset(fs)[f] else 0 {
      FilesOutsideCount(fs, p, f);
    }
  }

  lemma {:induction false} FilesOutsideCount(fs: seq<FileVersion>, p: ProjectId, f: FileVersion)
    ensures multiset(FilesOutside(fs, p))[f] == if f.project != p then multiset(fs)[f] else 0
  {
    if |fs| > 0 {
      var init, last := fs[..|fs| - 1], fs[|fs| - 1];
      FilesOutsideCount(init, p, f);
      CountSplitLast(fs);
      assert FilesOutside(fs, p) == FilesOutside(init, p) + (if last.project != p then [last] else []);
    }
  }

  /** The same for membership rows. */
  lemma MembersOutsideCounts(ms: seq<Membership>, p: ProjectId)
    ensures MembersKept(MembersOutside(ms, p), ms, p)
  {
    forall m ensures multiset(MembersOutside(ms, p))[m] == if m.project != p then multiset(ms)[m] else 0 {
      MembersOutsideCount(ms, p, m);
    }
  }

  lemma {:induction false} MembersOutsideCount(ms: seq<Membership>, p: ProjectId, m: Membership)
    ensures multiset(MembersOutside(ms, p))[m] == if m.project != p then multiset(ms)[m] else 0
  {
    if |ms| > 0 {
      var init, last := ms[..|ms| - 1], ms[|ms| - 1];
      MembersOutsideCount(init, p, m);
      CountSplitLast(ms);
      assert MembersOutside(ms, p) == MembersOutside(init, p) + (if last.project != p then [last] else []);
    }
  }


  /** `delete_project`: the project must be the requester's; a POST deletes
      it together with its file rows and memberships (the database's
      cascade), any other method changes nothing. */
  function DeleteProject(db: Db, user: UserId, p: ProjectId, isPost: bool): (r: Result<Db, ProjectError>)
    ensures (p !in db.projects || db.projects[p].owner != Some(user)) <==> r == Err(NotFound)
    ensures r.Err? ==> r == Err(NotFound)
    ensures r.Ok? && !isPost ==> r.value == db
    ensures r.Ok? && isPost ==>
      && p !in r.value.projects
      && (forall q :: q != p ==> (q in r.value.projects <==> q in db.projects))
      && (forall q :: q in r.value.projects ==> r.value.projects[q] == db.projects[q])
      && (forall f :: f in r.value.files <==> f in db.files && f.project != p)
      && (forall m :: m in r.value.members <==> m in db.members && m.project != p)
      && (forall f :: multiset(r.value.files)[f] == if f.project != p then multiset(db.files)[f] else 0)
      && (forall m :: multiset(r.value.members)[m] == if m.project != p then multiset(db.members)[m] else 0)
      && r.value.activity == db.activity
      && r.value.nextFile == db.nextFile && r.value.nextProject == db.nextProject
  {
    if p !in db.projects || db.projects[p].owner != Some(user) then Err(NotFound)
    else if !isPost then Ok(db)
    else
      FilesOutsideCounts(db.files, p);
      MembersOutsideCounts(db.members, p);
      Ok(db.(projects := db.projects - {p}, files := FilesOutside(db.files, p), members := MembersOutside(db.members, p)))
  }

  /** The cascade keeps the database well formed. */
  lemma DeleteProjectKeepsWellFormed(db: Db, user: UserId, p: ProjectId, isPost: bool)
    requires WellFormed(db)
    ensures var r := DeleteProject(db, user, p, isPost); r.Ok? ==> WellFormed(r.value)
  {
    var r := DeleteProject(db, user, p, isPost);
    if r.Ok? && isPost {
      FilesOutsideKeepsOrder(db.files, p);
      var fs := r.value.files;
      forall i | 0 <= i < |fs| ensures fs[i] in db.files && fs[i].project != p {
        assert fs[i] in fs;
      }
      var ms := r.value.members;
      forall i | 0 <= i < |ms| ensures ms[i].project in r.value.projects {
        assert ms[i] in ms;
      }
    }
  }

  /** Filtering keeps primary keys increasing and each row's fields. */
  lemma {:induction false} FilesOutsideKeepsOrder(fs: seq<FileVersion>, p: ProjectId)
    requires IdsIncreasing(fs)
    ensures IdsIncreasing(FilesOutside(fs, p))
  {
    if |fs| > 0 {
      var init := fs[..|fs| - 1];
      var last := fs[|fs| - 1];
      FilesOutsideKeepsOrder(init, p);
      var r0 := FilesOutside(init, p);
      var r := FilesOutside(fs, p);
      assert r == r0 + (if last.project != p then [last] else []);
      forall f | f in r0 ensures f.id < last.id {
        var k :| 0 <= k < |init| && init[k] == f;
        assert fs[k] == f;
      }
      forall i, j | 0 <= i < j < |r| ensures r[i].id < r[j].id {
        assert r[i] == r0[i];
        if j < |r0| {
          assert r[j] == r0[j] && r0[i].id < r0[j].id;
        } else {
          assert r[j] == last && r0[i] in r0 && r0[i].id < last.id;
        }
      }
    }
  }

  /** `delete_project_soft`: the project must be the requester's; a POST
      marks it deleted (and nothing else), any other method changes nothing. */
  function DeleteProjectSoft(db: Db, user: UserId, p: ProjectId, isPost: bool): (r: Result<Db, ProjectError>)
    ensures (p !in db.projects || db.projects[p].owner != Some(user)) <==> r == Err(NotFound)
    ensures r.Err? ==> r == Err(NotFound)
    ensures r.Ok? && !isPost ==> r.value == db
    ensures r.Ok? && isPost ==>
      && p in r.value.projects && r.value.projects[p].isDeleted
      && r.value.projects[p] == db.projects[p].(isDeleted := true)
      && r.value == db.(projects := r.value.projects)
      && r.value.projects.Keys == db.projects.Keys
      && (forall q :: q in db.projects && q != p ==> r.value.projects[q] == db.projects[q])
  {
    if p !in db.projects || db.projects[p].owner != Some(user) then Err(NotFound)
    else if !isPost then Ok(db)
    else Ok(db.(projects := db.projects[p := db.projects[p].(isDeleted := true)]))
  }

  /** After a soft delete the upload form no longer offers the project;
      every other project is offered as before. */
  lemma SoftDeletedNotSelectable(db: Db, user: UserId, p: ProjectId)
    requires p in db.projects && db.projects[p].owner == Some(user)
    ensures var db' := DeleteProjectSoft(db, user, p, true).value;
      && ProjectForms.Selectable(db'.projects, Some(user)) == ProjectForms.Selectable(db.projects, Some(user)) - {p}
      && forall o :: o != Some(user) ==> ProjectForms.Selectable(db'.projects, o) == ProjectForms.Selectable(db.projects, o)
  {
  }

  /** After a soft delete the project's files are kept but no longer
      downloadable. */
  lemma SoftDeletedNotDownloadable(db: Db, user: UserId, p: ProjectId)
    requires p in db.projects && db.projects[p].owner == Some(user)
    ensures DownloadProject(DeleteProjectSoft(db, user, p, true).value, user, p) == Err(NoFiles)
  {
  }
}

=== FILE: results.dfy ===
/** Failure-carrying values used by every operation of the model: a view that
    returns early with an error is a `Err`, a view that completes is an `Ok`. */
module Results {

  datatype Option<+T> = None | Some(value: T)

  datatype Result<+T, +E> = Ok(value: T) | Err(error: E)
}

=== FILE: signals.dfy ===
/** The post-save receiver on projects: whenever a project row is created
    with an owner, the owner becomes an admin member of it. */
module Signals {
  import opened Results
  import opened GisModel

  /** `add_owner_as_admin`: on a save that created `project` (stored under
      `pid`) and whose owner is set, append one admin membership for the
      owner, invited by the owner; any other save leaves memberships alone. */
  function AddOwnerAsAdmin(members: seq<Membership>, pid: ProjectId, project: Project, created: bool): (r: seq<Membership>)
    ensures |members| <= |r| && r[..|members|] == members
    ensures created && project.owner.Some? ==>
      |r| == |members| + 1
      && r[|members|].project == pid && r[|members|].user == project.owner.value
      && r[|members|].role == Admin && r[|members|].invitedBy == project.owner.value
    ensures !created || project.owner.None? ==> r == members
  {
    if created && project.owner.Some? then
      members + [Membership(pid, project.owner.value, Admin, project.owner.value)]
    else members
  }

  /** `Project.objects.create(...)` followed by its post-save signal: the new
      project gets the next primary key, starts not deleted, and nothing but
      the project table and (through the signal) the membership table changes. */
  function CreateProjectRecord(db: Db, name: string, owner: Option<UserId>): (r: (Db, ProjectId))
    requires WellFormed(db)
    ensures r.1 !in db.projects
    ensures r.0.projects == db.projects[r.1 := Project(owner, name, false)]
    ensures r.0.files == db.files && r.0.activity == db.activity && r.0.nextFile == db.nextFile
    ensures r.0.members == AddOwnerAsAdmin(db.members, r.1, Project(owner, name, false), true)
    ensures r.0.nextProject == r.1 + 1
    ensures WellFormed(r.0)
  {
    var pid := db.nextProject;
    var project := Project(owner, name, false);
    (db.(projects := db.projects[pid := project],
         members := AddOwnerAsAdmin(db.members, pid, project, true),
         nextProject := pid + 1),
     pid)
  }

  /** Creating a project with an owner leaves that owner with exactly one
      membership in it, an admin one. */
  lemma CreatedProjectHasOneAdmin(db: Db, name: string, owner: UserId)
    requires WellFormed(db)
    ensures var (db', pid) := CreateProjectRecord(db, name, Some(owner));
      && MemberCount(db'.members, pid, owner) == 1
      && (forall i :: 0 <= i < |db'.members| && db'.members[i].project == pid ==>
            db'.members[i] == Membership(pid, owner, Admin, owner))
  {
    var (db', pid) := CreateProjectRecord(db, name, Some(owner));
    MemberCountZero(db.members, pid, owner);
    MemberCountAppend(db.members, Membership(pid, owner, Admin, owner), pid, owner);
  }

  /** The signal keeps membership rows unique when the project is new. */
  lemma AddOwnerAsAdminKeepsUnique(db: Db, name: string, owner: Option<UserId>)
    requires WellFormed(db) && MembershipUnique(db.members)
    ensures MembershipUnique(CreateProjectRecord(db, name, owner).0.members)
  {
  }

  /** Creating a project touches no file row, so every guarantee about the
      version store carries over. */
  lemma CreateProjectKeepsStoreInvariant(db: Db, name: string, owner: Option<UserId>)
    requires StoreInvariant(db)
    ensures StoreInvariant(CreateProjectRecord(db, name, owner).0)
  {
  }
}

=== FILE: text.dfy ===
/** The handful of Python string and `os.path` primitives the views rely on,
    written out with the exact semantics of CPython on a POSIX system:
    `str.rfind`, `in`, `str.rsplit(sep, 1)`, `os.path.basename`,
    `os.path.splitext`, `str.replace` of one character, `str.strip()` and the
    decimal rendering of an integer inside an f-string. */
module Text {

  // ---------------------------------------------------------------------
  // Searching

  /** `s.rfind(c)` for a one-character needle: the last index holding `c`, or -1. */
  function RFindChar(s: string, c: char): (r: int)
    ensures -1 <= r < |s|
    ensures r >= 0 ==> s[r] == c
    ensures forall k :: r < k < |s| ==> s[k] != c
    ensures r == -1 <==> c !in s
  {
    if |s| == 0 then -1
    else if s[|s| - 1] == c then |s| - 1
    else RFindChar(s[..|s| - 1], c)
  }

  /** `pat` occurs in `s` starting at index `i`. */
  predicate IsAt(s: string, pat: string, i: int)
  {
    0 <= i && i + |pat| <= |s| && s[i..i + |pat|] == pat
  }

  /** Python's `pat in s`. */
  predicate Contains(s: string, pat: string)
  {
    exists i :: 0 <= i <= |s| && IsAt(s, pat, i)
  }

  /** The last occurrence of `pat` starting strictly before `n`, or -1. */
  function RFindBefore(s: string, pat: string, n: nat): (r: int)
    ensures -1 <= r < n
    ensures r >= 0 ==> IsAt(s, pat, r)
    ensures forall k :: r < k < n ==> !IsAt(s, pat, k)
  {
    if n == 0 then -1
    else if IsAt(s, pat, n - 1) then n - 1
    else RFindBefore(s, pat, n - 1)
  }

  /** `s.rfind(pat)`: the start of the last occurrence of `pat`, or -1. */
  function RFind(s: string, pat: string): (r: int)
    ensures -1 <= r <= |s|
    ensures r >= 0 ==> IsAt(s, pat, r)
    ensures forall k :: r < k ==> !IsAt(s, pat, k)
    ensures r >= 0 <==> Contains(s, pat)
  {
    RFindBefore(s, pat, |s| + 1)
  }

  /** `s.rsplit(pat, 1)[0]`: everything before the last occurrence of `pat`,
      or the whole string when `pat` does not occur. */
  function RSplitHead(s: string, pat: string): (r: string)
    requires |pat| > 0
    ensures Contains(s, pat) ==> IsAt(s, pat, |r|) && !Contains(s[|r| + 1..], pat)
    ensures !Contains(s, pat) ==> r == s
    ensures r == s[..|r|]
  {
    var k := RFind(s, pat);
    if k >= 0 then
      var rest := s[k + 1..];
      assert !Contains(rest, pat) by {
        forall i | 0 <= i <= |rest| && IsAt(rest, pat, i)
          ensures false
        {
          assert rest[i..i + |pat|] == s[k + 1 + i..k + 1 + i + |pat|];
          assert IsAt(s, pat, k + 1 + i);
        }
      }
      s[..k]
    else s
  }

  // ---------------------------------------------------------------------
  // Paths (posixpath)

  /** `os.path.basename(p)`: what follows the last '/'. */
  function Basename(p: string): (r: string)
    ensures '/' !in r
    ensures |r| <= |p| && r == p[|p| - |r|..]
    ensures '/' !in p ==> r == p
    ensures '/' in p ==> p[|p| - |r| - 1] == '/'
  {
    p[RFindChar(p, '/') + 1..]
  }

  /** Some character of `p[lo..hi]` is not a '.'. */
  predicate HasNonDot(p: string, lo: int, hi: int)
  {
    exists k :: lo <= k < hi && 0 <= k < |p| && p[k] != '.'
  }

  /** `os.path.splitext(p)`: the extension starts at the last '.', provided
      that dot lies in the last path component and some character other than
      '.' precedes it there (so ".bashrc" and "..x" have no extension). */
  function SplitExt(p: string): (r: (string, string))
    ensures r.0 + r.1 == p
    ensures r.1 == "" || IsExtension(r.1)
  {
    var sep := RFindChar(p, '/');
    var dot := RFindChar(p, '.');
    if dot > sep && HasNonDot(p, sep + 1, dot) then
      LastDotStartsExtension(p, sep, dot);
      (p[..dot], p[dot..])
    else (p, "")
  }

  /** The text from the last '.' on, when that '.' follows the last '/',
      contains no other '.' and no '/'. */
  lemma LastDotStartsExtension(p: string, sep: int, dot: int)
    requires sep == RFindChar(p, '/') && dot == RFindChar(p, '.') && dot > sep
    ensures IsExtension(p[dot..])
  {
    var ext := p[dot..];
    forall i | 0 <= i < |ext| ensures ext[i] == p[dot + i] && (i > 0 ==> ext[i] != '.') && ext[i] != '/' {
    }
    forall i | 0 <= i < |ext[1..]| ensures ext[1..][i] != '.' {
      assert ext[1..][i] == ext[i + 1];
    }
  }

  /** An extension as `splitext` reports it: a dot followed by neither '.' nor '/'. */
  predicate IsExtension(ext: string)
  {
    |ext| >= 1 && ext[0] == '.' && '.' !in ext[1..] && '/' !in ext
  }

  /** A stem `splitext` keeps whole: one component, not made of dots only. */
  predicate IsPlainStem(stem: string)
  {
    '/' !in stem && exists k :: 0 <= k < |stem| && stem[k] != '.'
  }

  /** Re-appending an extension is undone by `splitext`. */
  lemma SplitExtOfJoin(stem: string, ext: string)
    requires IsPlainStem(stem) && IsExtension(ext)
    ensures SplitExt(stem + ext) == (stem, ext)
  {
    var p := stem + ext;
    var dot := RFindChar(p, '.');
    var sep := RFindChar(p, '/');
    assert p[|stem|] == '.';
    forall k | |stem| < k < |p| ensures p[k] != '.' && p[k] != '/' {
      assert p[k] == ext[k - |stem|];
      assert ext[k - |stem|] == ext[1..][k - |stem| - 1];
    }
    assert dot == |stem|;
    forall k | 0 <= k < |p| ensures p[k] != '/' {
      if k < |stem| { assert p[k] == stem[k]; }
    }
    assert sep == -1;
    var k :| 0 <= k < |stem| && stem[k] != '.';
    assert p[k] == stem[k];
    assert p[..dot] == stem;
    assert p[dot..] == ext;
  }

  /** A name without any '.' has no extension. */
  lemma SplitExtNoDot(p: string)
    requires '.' !in p
    ensures SplitExt(p) == (p, "")
  {
  }

  /** The basename of `dir + "/" + name` is `name` when `name` is one component. */
  lemma BasenameOfJoin(dir: string, name: string)
    requires '/' !in name
    ensures Basename(dir + "/" + name) == name
  {
    var p := dir + "/" + name;
    var i := RFindChar(p, '/');
    assert p[|dir|] == '/';
    forall k | |dir| < k < |p| ensures p[k] != '/' {
      assert p[k] == name[k - |dir| - 1];
    }
    assert i == |dir|;
    assert p[i + 1..] == name;
  }

  // ---------------------------------------------------------------------
  // Character replacement

  /** `s.replace(a, b)` for one-character arguments. */
  function ReplaceChar(s: string, a: char, b: char): (r: string)
    ensures |r| == |s|
    ensures forall i :: 0 <= i < |s| ==> r[i] == (if s[i] == a then b else s[i])
  {
    seq(|s|, i requires 0 <= i < |s| => if s[i] == a then b else s[i])
  }

  // ---------------------------------------------------------------------
  // Decimal rendering of a non-negative integer

  predicate IsDigit(c: char)
  {
    '0' <= c <= '9'
  }

  predicate AllDigits(s: string)
  {
    forall i :: 0 <= i < |s| ==> IsDigit(s[i])
  }

  function DigitChar(d: nat): (c: char)
    requires d < 10
    ensures IsDigit(c)
  {
    ('0' as int + d) as char
  }

  function DigitValue(c: char): (d: nat)
    requires IsDigit(c)
    ensures d < 10
  {
    c as int - '0' as int
  }

  /** `str(n)` for a non-negative integer. */
  function NatToString(n: nat): (r: string)
    ensures |r| >= 1
    ensures AllDigits(r)
    ensures (r[0] == '0') <==> n == 0
  {
    if n < 10 then [DigitChar(n)]
    else NatToString(n / 10) + [DigitChar(n % 10)]
  }

  /** `int(s)` for a string of decimal digits. */
  function ParseNat(s: string): nat
    requires AllDigits(s)
  {
    if |s| == 0 then 0
    else 10 * ParseNat(s[..|s| - 1]) + DigitValue(s[|s| - 1])
  }

  /** Reading back a rendered number gives the number. */
  lemma {:induction false} ParseNatToString(n: nat)
    ensures ParseNat(NatToString(n)) == n
  {
    var s := NatToString(n);
    if n < 10 {
      assert s[..0] == [];
    } else {
      ParseNatToString(n / 10);
      assert s[..|s| - 1] == NatToString(n / 10);
    }
  }

  // ---------------------------------------------------------------------
  // str.strip()

  /** The character every text field of a Django form refuses. */
  const NullChar: char := '\0'

  /** Python's `str.isspace()` for one character (the whitespace set of Python 3). */
  predicate IsSpace(c: char)
  {
    || c == ' ' || c == '\t' || c == '\n' || c == '\r' || c == '\U{000B}' || c == '\U{000C}'
    || ('\U{001C}' <= c <= '\U{001F}') || c == '\U{0085}' || c == '\U{00A0}' || c == '\U{1680}'
    || ('\U{2000}' <= c <= '\U{200A}') || c == '\U{2028}' || c == '\U{2029}' || c == '\U{202F}'
    || c == '\U{205F}' || c == '\U{3000}'
  }

  predicate AllSpace(s: string)
  {
    forall i :: 0 <= i < |s| ==> IsSpace(s[i])
  }

  /** `s.lstrip()`. */
  function StripStart(s: string): (r: string)
    ensures |r| <= |s| && r == s[|s| - |r|..]
    ensures AllSpace(s[..|s| - |r|])
    ensures |r| > 0 ==> !IsSpace(r[0])
  {
    if |s| > 0 && IsSpace(s[0]) then
      var t := StripStart(s[1..]);
      var n := |s| - |t|;
      SpacePrefixGrows(s, n);
      assert s[1..][n - 1..] == s[n..];
      t
    else s
  }

  /** A whitespace character in front of a whitespace prefix of the rest
      gives a whitespace prefix of the whole. */
  lemma SpacePrefixGrows(s: string, n: nat)
    requires 0 < n <= |s| && IsSpace(s[0]) && AllSpace(s[1..][..n - 1])
    ensures AllSpace(s[..n])
  {
    forall i | 0 <= i < n ensures IsSpace(s[..n][i]) {
      if i > 0 {
        assert s[..n][i] == s[1..][..n - 1][i - 1];
      }
    }
  }

  /** `s.rstrip()`. */
  function StripEnd(s: string): (r: string)
    ensures |r| <= |s| && r == s[..|r|]
    ensures AllSpace(s[|r|..])
    ensures |r| > 0 ==> !IsSpace(r[|r| - 1])
  {
    if |s| > 0 && IsSpace(s[|s| - 1]) then
      var t := StripEnd(s[..|s| - 1]);
      assert s[|t|..] == s[..|s| - 1][|t|..] + [s[|s| - 1]];
      t
    else s
  }

  /** `s.strip()`: `s` with whitespace removed from both ends. */
  function Strip(s: string): (r: string)
    ensures |r| <= |s|
    ensures |r| > 0 ==> !IsSpace(r[0]) && !IsSpace(r[|r| - 1])
    ensures |r| == 0 <==> AllSpace(s)
    ensures TrimmedFrom(r, s)
  {
    StripEmptyIffAllSpace(s);
    StripIsTrim(s);
    StripEnd(StripStart(s))
  }

  /** `r` is a slice of `s` with nothing but whitespace cut off either end. */
  predicate TrimmedFrom(r: string, s: string)
  {
    exists i, j :: 0 <= i <= j <= |s| && r == s[i..j] && AllSpace(s[..i]) && AllSpace(s[j..])
  }

  /** Stripping both ends cuts only whitespace. */
  lemma StripIsTrim(s: string)
    ensures TrimmedFrom(StripEnd(StripStart(s)), s)
  {
    var t := StripStart(s);
    var u := StripEnd(t);
    var i := |s| - |t|;
    var j := i + |u|;
    assert t == s[i..];
    assert u == s[i..j];
    assert s[j..] == t[|u|..];
  }

  /** Both ends stripped leave nothing exactly when every character is whitespace. */
  lemma StripEmptyIffAllSpace(s: string)
    ensures |StripEnd(StripStart(s))| == 0 <==> AllSpace(s)
  {
    var t := StripStart(s);
    var i := |s| - |t|;
    if |StripEnd(t)| == 0 {
      assert t[0..] == t;
      assert |t| == 0;
      assert s[..i] == s;
    }
  }

  /** Stripping twice is stripping once. */
  lemma StripIdempotent(s: string)
    ensures Strip(Strip(s)) == Strip(s)
  {
    var r := Strip(s);
    assert StripStart(r) == r;
    assert StripEnd(r) == r;
  }
}
